=== FILE: README.md ===
# Sudoku core in Dafny

A model of the core of a console Sudoku program, with proofs about it:

- the 9×9 board (`Grid`), whose cells hold 0 for empty or a digit, and each
  cell Editable or Fixed;
- the brute-force backtracking solver and its solution counter;
- the puzzle generator, which fills the diagonal boxes, solves, carves clues
  away while the solution stays unique, and fixes the remaining clues;
- the game state machine: moves with undo and redo stacks.

The program mutates one board in place. The model works on immutable values:

- a board is `Grid(cells, states)`, two 9×9 sequences;
- every in-place update is a function that returns the new board;
- thrown exceptions become an `Outcome` or `Result` that carries an error kind
  (`OutOfRange`, or `InvalidArgument` with its reason).

Files, one module each, following the program's sources:

- `board.dfy` (`Board`): construction, `get`/`set`, cell states, `reset`,
  loading from text, `isValid`, `isComplete`, `getBoxIndex`.
- `solver.dfy` (`Solver`): `canPlace`, `solveHelper`/`solve`,
  `countSolutions`, `hasUniqueSolution`.
- `generator.dfy` (`Generator`): `fillDiagonal`, `countFilledCells`,
  `removeNumbers`, `generate`.
- `game.dfy` (`Game`): construction, `makeMove`, `undo`, `redo`, `reset`,
  `isSolved`, `clearHistory`.

Properties are stated against independent definitions:

- *Validity*: no row, column or box repeats a non-zero digit.
- *Completion*: a full, valid board that keeps every clue of the puzzle.
- *The number of completions, up to two*: `Class`, where 2 stands for "two or more".
- *Row-major lexicographic order* of boards.

The solver and counter are proved against these definitions, and the generator
against the counter.

The random number generator is replaced by parameters. `FillDiagonal` takes the
three shuffled permutations of 1..9. `Generate` and `RemoveNumbers` take the
order in which the cells are visited. The program builds the list of filled
positions and then shuffles it; the model takes any order of all 81 cells and
keeps the filled ones (`FilledIn`). Every order of the filled positions arises
that way.

## Model

| member | source | states |
|---|---|---|
| `Board.New` | src/Grid.cpp:5-12 | The new board is well formed, and every cell is 0 and Editable. |
| `Board.Get` | src/Grid.cpp:14-19 | Fails with OutOfRange exactly when row or column is outside 0..8; otherwise returns the stored value, a number in 0..9. |
| `Board.Set` | src/Grid.cpp:21-31 | Indices are checked first (OutOfRange), then the value range 0..9 (InvalidArgument, also on a Fixed cell). Success leaves all states alone and a Fixed cell's board unchanged; on an Editable cell only that cell changes, to the value. |
| `Board.Write` | src/Grid.cpp:28-30 | The write `set` performs once its checks pass: a Fixed cell is a no-op; an Editable cell takes the value; every other cell and every state is unchanged. |
| `Board.SetKeepsFixed` | src/Grid.cpp:28-30 | A Fixed cell reads the same after any accepted `set`. |
| `Board.WriteBack` | src/Grid.cpp:21-31 | Writing back the value a cell held restores the board exactly. |
| `Board.SetCellState` | src/Grid.cpp:116-118 | Only that cell's state changes; no value changes. |
| `Board.Reset` | src/Grid.cpp:33-41 | Every Editable cell becomes 0; Fixed cells keep their values; every state is kept. |
| `Board.ResetIdempotent` | src/Grid.cpp:33-41 | Resetting twice gives the same board as resetting once. |
| `Board.ResetDiscardsSet` | src/Grid.cpp:21-41 | Resetting after any accepted `set` gives the same board as resetting before it. |
| `Board.BoxIndex` | src/Grid.cpp:154-156 | The box index is in 0..8; its quotient by 3 is the row band and its remainder the column stack. |
| `Board.SameBox` | src/Grid.cpp:154-156 | Two cells get the same box index exactly when they share row band and column stack. |
| `Board.ScanRow` | src/Grid.cpp:125-139 | One row of the scan keeps the marking tables equal to the digits seen so far, and fails only on a real repetition in a row, column or box. |
| `Board.IsValid` | src/Grid.cpp:120-141 | True exactly when no row, column or box holds the same non-zero digit twice; empty cells are ignored. |
| `Board.IsComplete` | src/Grid.cpp:143-152 | True exactly when no cell is 0 and the board is valid. |
| `Board.LoadLine` | src/Grid.cpp:59-71 | A line loads cell by cell: it passes exactly when the rest of the line is digits, and otherwise names the first non-digit. The cells before the stopping point hold their digits, Fixed exactly when non-zero; every other cell is untouched. |
| `Board.LoadRows` | src/Grid.cpp:48-72 | The row loop keeps the board well formed whatever the text holds. Its contents are described by `Board.LoadRowsLoaded`, `Board.LoadRowsPass` and `Board.LoadRowsFault`. |
| `Board.LoadRowsLoaded` | src/Grid.cpp:48-72 | Every cell before the point where loading stops holds its digit, Fixed exactly when non-zero; every cell after it keeps its previous value and state. |
| `Board.LoadRowsPass` | src/Grid.cpp:48-72 | When loading passes, every remaining line has nine characters, all digits. |
| `Board.LoadRowsFault` | src/Grid.cpp:48-72 | When loading fails, the reported line is the first bad one: every earlier line is nine digits. The error is either that line's length, when it is not 9, or its first non-digit. |
| `Board.LoadFromStrings` | src/Grid.cpp:43-73 | Passes exactly when the text is nine lines of nine digits. A line count other than 9 is rejected with the board untouched. Any other failure is the first faulty line, and every error is InvalidArgument. |
| `Board.LoadFromStringsCells` | src/Grid.cpp:43-73 | On success every cell holds its digit and is Fixed exactly when that digit is not 0. On failure, the cells read before the fault are already written. |
| `Solver.ProbeInBox` | src/Solver.cpp:65-69 | The i-th box probe of `canPlace` stays on the board, inside the box of (row, col). |
| `Solver.ProbeCovers` | src/Solver.cpp:65-69 | Every cell of the box of (row, col) is one of the nine box probes. |
| `Solver.CanPlaceIff` | src/Solver.cpp:64-74 | `canPlace` (`Solver.CanPlace`) holds exactly when the digit occurs nowhere in the cell's row, column or box. |
| `Solver.WriteRestore` | src/Solver.cpp:31-33 | A trial write followed by writing 0 back gives the board the trial started from, so the digit loops of both `countSolutions` and `solveHelper` go on from the same board. |
| `Solver.PlaceSolutions` | src/Solver.cpp:53-55 | With num written into an empty Editable cell, the board's solutions are exactly the original board's solutions that hold num there. |
| `Solver.PlaceKeeps` | src/Solver.cpp:53-55 | Writing a digit that `canPlace` accepts keeps the board valid, and keeps every cell up to the next one filled. |
| `Solver.NoPlaceNoCompletion` | src/Solver.cpp:53 | No solution holds a digit that `canPlace` refuses. |
| `Solver.SolveFrom` | src/Solver.cpp:39-62 | The search never changes cell states. When it fails, the board is identical to its input, because every trial write is undone. |
| `Solver.TryDigits` | src/Solver.cpp:52-61 | The digit loop never changes states, and leaves the board identical to its input when no digit succeeds. |
| `Solver.Solve` | src/Solver.cpp:3-5 | `solve` keeps the states, and on failure the board. |
| `Solver.TryPlacedStep` | src/Solver.cpp:53-58 | One accepted digit: the search either returns its success, or the loop continues with the next digit from the unchanged board. |
| `Solver.SolveFromCorrect` | src/Solver.cpp:39-62 | On a valid board filled up to (row, col), with every empty cell Editable: success leaves a solution of the input board; failure means there is none. |
| `Solver.TryDigitsCorrect` | src/Solver.cpp:52-61 | Trying digits from num succeeds with a solution holding a digit ≥ num at the cell; on failure every solution holds a digit < num there. |
| `Solver.TryPlacedCorrect` | src/Solver.cpp:53-58 | The same, once `canPlace` has accepted num. |
| `Solver.BelowCorrect` | src/Solver.cpp:53-58 | After an accepted num, the search either finds a solution holding num at the cell, or none holds num and the loop moves to num + 1 on the same board. |
| `Solver.PlacedFound` | src/Solver.cpp:55-57 | A successful search after writing num gives a solution of the original board that holds num at the cell. |
| `Solver.PlacedNotFound` | src/Solver.cpp:55-58 | A failed search after writing num means no solution holds num there, and the loop continues as from num + 1. |
| `Solver.SolveCorrect` | src/Solver.cpp:3-5 | On a valid board whose empty cells are Editable, `solve` succeeds exactly when a solution exists, and then leaves one on the board. |
| `Solver.SolveFromLeast` | src/Solver.cpp:39-62 | The solution found from (row, col) on is the first in row-major lexicographic order: no solution comes before it. |
| `Solver.TryDigitsLeast` | src/Solver.cpp:52-57 | If no solution has a digit below num at the cell, the solution the digit loop finds comes first among all solutions. |
| `Solver.TryPlacedLeast` | src/Solver.cpp:52-57 | The same, once `canPlace` has accepted num. |
| `Solver.FoundLeast` | src/Solver.cpp:53-57 | A search that succeeds below the smallest digit any solution can hold finds the first solution. |
| `Solver.PlacedLeast` | src/Solver.cpp:53-57 | The first solution of the board with num written is the first solution of the board, when no solution holds a smaller digit there. |
| `Solver.NotFoundBelow` | src/Solver.cpp:55-58 | After a failed search under num, every solution holds a digit of at least num + 1 at the cell. |
| `Solver.SolveLeast` | src/Solver.cpp:3-5 | On a valid board whose empty cells are Editable, the solution `solve` leaves is the lexicographically least one. |
| `Solver.CountFrom` | src/Solver.cpp:13-37 | The value `countSolutions(grid, row, col)` returns is never negative. What it counts is `Solver.CountFromClass`, which needs a valid board. |
| `Solver.CountDigits` | src/Solver.cpp:28-36 | The digit loop never lowers the running total, and once the total has reached 2 (`MAX_SOLUTIONS_NEEDED`) it adds nothing more. |
| `Solver.CountOn` | src/Solver.cpp:13-37 | `countSolutions` on a board passed by reference: writing each trial digit and then 0 hands the board back exactly as it was. The count it returns is `Solver.CountFrom`'s. |
| `Solver.CountDigitsOn` | src/Solver.cpp:28-36 | The digit loop on the shared board: after every trial write and undo, the board is the one the loop started with, and the total is `Solver.CountDigits`'. |
| `Solver.CountSolutions` | src/Solver.cpp:13-37 | `countSolutions(grid)` from (0, 0) is never negative, and equals the count of `Solver.CountFrom` from (0, 0). |
| `Solver.ClassMeaning` | src/Solver.cpp:13-37 | The capped count is 0 exactly when there is no solution, 1 exactly when there is one and only one, and 2 exactly when two different solutions exist. |
| `Solver.ClassFromSplit` | src/Solver.cpp:29-35 | The solutions with a digit ≥ num at the cell split into those with num and those with a digit ≥ num + 1, counted up to two. |
| `Solver.ClassFromAbove` | src/Solver.cpp:29 | No solution holds a digit above 9, so the loop's bound loses none. |
| `Solver.SkippedClass` | src/Solver.cpp:30 | A digit refused by `canPlace` adds no solutions. |
| `Solver.FullBoardClass` | src/Solver.cpp:16-18 | A full valid board has exactly one solution, itself, matching the count of 1 at the end of the board. |
| `Solver.CountFromClass` | src/Solver.cpp:13-37 | On a valid board filled up to (row, col), the counter's result capped at 2 equals the number of solutions capped at 2. The result itself can exceed 2. |
| `Solver.CountDigitsClass` | src/Solver.cpp:28-36 | The loop from digit num with running total t returns, capped at 2, the value min(t + solutions with a digit ≥ num at the cell, 2). |
| `Solver.CountPlaced` | src/Solver.cpp:30-33 | An accepted digit adds its subtree's count, which counts (capped) the solutions holding that digit. |
| `Solver.PlacedClass` | src/Solver.cpp:31-32 | The count below a written digit, capped at 2, is the number of solutions holding that digit, capped at 2. |
| `Solver.HasUniqueSolutionIff` | src/Solver.cpp:7-11 | On a valid board whose empty cells are Editable, `hasUniqueSolution` holds exactly when a solution exists and any two solutions are equal. |
| `Solver.UniqueIffClass` | src/Solver.cpp:7-11 | On a valid board whose empty cells are Editable, `hasUniqueSolution` (`Solver.HasUniqueSolution`, the counter on a copy compared with 1) holds exactly when the solutions, counted up to two, are one. |
| `Solver.SolveFromCount` | src/Solver.cpp:13-62 | On any well-formed board, valid or not, `solveHelper` from (row, col) succeeds exactly when `countSolutions` from (row, col) is positive: both skip the same filled cells and try the same digits. |
| `Solver.TryDigitsCount` | src/Solver.cpp:28-36 | The digit loops agree: trying num..9 succeeds exactly when counting num..9 from a total of 0 is positive. |
| `Solver.TryPlacedCount` | src/Solver.cpp:29-35 | The same once `canPlace` has accepted num, under both loops' trial write of num. |
| `Solver.PlacedFoundCount` | src/Solver.cpp:29-35 | When the search below an accepted num succeeds and the count below it is positive, the search returns success and the count from num on is positive. |
| `Solver.PlacedEmptyCount` | src/Solver.cpp:29-35 | When the search below an accepted num fails and the count below it is zero, the search undoes its write and goes on to num + 1, and the count from num equals the count from num + 1, exactly as if num had been refused. |
| `Solver.SolveAgreesWithCount` | src/Solver.cpp:3-37 | On every well-formed board, `solve` succeeds exactly when `countSolutions` is positive. |
| `Generator.TargetClues` | include/Generator.hpp:9-14 | Each difficulty's clue target (35, 30, 25 or 20, read at src/Generator.cpp:44) lies strictly between 0 and 81, so removal never aims at an empty board or a full one. |
| `Generator.FillBox` | src/Generator.cpp:34-39 | Each Editable cell of the box starting at (box, box) takes the permutation's digit in row-major order; Fixed cells there, every other cell and every state are unchanged. |
| `Generator.FillDiagonal` | src/Generator.cpp:28-41 | The Editable cells of boxes 0, 4 and 8 hold the three permutations (all of them on the new board `generate` starts from); every other cell and every state is unchanged. |
| `Generator.DiagonalValid` | src/Generator.cpp:28-41 | Filled from an empty board, the result is valid, and a cell is non-zero exactly when it lies in box 0, 4 or 8. |
| `Generator.CountFilledCells` | src/Generator.cpp:77-87 | The count is the number of non-zero cells (the size of the set of filled positions). |
| `Generator.FilledCount` | src/Generator.cpp:77-87 | A full board has 81 filled cells. |
| `Generator.Erase` | src/Generator.cpp:63-64 | Erasing a cell makes it 0 and leaves every other cell as it was. |
| `Generator.WriteEmpty` | src/Generator.cpp:64 | On an Editable cell, `set(row, col, 0)` is exactly erasing that cell. |
| `Generator.ClassMono` | src/Generator.cpp:63-67 | Erasing clues never lowers the number of solutions: a board with a subset of the clues has at least as many. |
| `Generator.SubBoardValid` | src/Generator.cpp:63-64 | Erasing clues keeps a valid board valid. |
| `Generator.FilledIn` | src/Generator.cpp:47-54 | The positions kept are exactly the listed cells that are filled, with no repeats when the list has none. |
| `Generator.FilledInLists` | src/Generator.cpp:47-56 | From an order of all 81 cells, the positions kept list every clue exactly once and nothing else. |
| `Generator.RemoveStart` | src/Generator.cpp:44-56 | Before the first iteration the loop invariant holds, with `currentClues` equal to `countFilledCells`. |
| `Generator.EraseCount` | src/Generator.cpp:68 | Erasing a clue lowers the number of filled cells by one, which is what `--currentClues` tracks. |
| `Generator.RemoveKeepErased` | src/Generator.cpp:63-68 | A removal kept because the erased board has a unique solution preserves the invariant, with one clue fewer. |
| `Generator.RemoveKeepRestored` | src/Generator.cpp:70-72 | A rejected removal puts the saved digit back: the board is as before the iteration, the invariant holds, and that clue is now known to be essential. |
| `Generator.EssentialStays` | src/Generator.cpp:58-74 | A clue whose removal breaks uniqueness still breaks it after other clues are removed. |
| `Generator.TryRemove` | src/Generator.cpp:63-73 | One iteration keeps the invariant. The visited clue stays erased, with the clue count one lower, exactly when the board without it passes `hasUniqueSolution`; otherwise the board and count are as before. |
| `Generator.RemoveFinish` | src/Generator.cpp:58-61 | When the loop stops (target reached or positions exhausted), the board is valid if the input was and, if the input was valid with one solution, has the same single solution. If, further, more clues than the target remain, every remaining clue is essential. |
| `Generator.RemoveNumbers` | src/Generator.cpp:43-75 | Only erases: no cell gets a different non-zero value, and states are unchanged. At least min(initial clues, target) clues remain, and at or below the target the board is untouched. Every change leaves a board with a unique solution. From a valid board with one solution, the result keeps exactly that solution, and when it stops above the target every clue left is essential. |
| `Generator.FixClues` | src/Generator.cpp:15-22 | Every non-zero cell becomes Fixed; empty cells keep their state, so on a board whose empty cells are Editable a cell is Fixed exactly when it is non-zero; no value changes. |
| `Generator.FixedCluesReset` | src/Generator.cpp:15-22 | On a board whose Fixed cells are exactly the clues, `reset` changes nothing. |
| `Generator.Generate` | src/Generator.cpp:7-26 | The puzzle is valid with at most one solution, Fixed exactly on its clues, and unchanged by `reset`. The ghost `diagonal` is the empty board with the three permutations in boxes 0, 4 and 8, and the ghost `seeded` holds exactly when `solve` succeeds on it, that is, exactly when it has a solution. In that case the puzzle has exactly one solution (`hasUniqueSolution` holds), at least the difficulty's clue count, and every clue beyond that count is essential. |
| `Game.NewGame` | src/Game.cpp:3 | A new game has the given board and empty histories, which trivially agree with the board. |
| `Game.MakeMoveKeepingRedo` | src/Game.cpp:6-31 | `makeMove` as written. It succeeds exactly when the move `MakeMove` accepts is accepted, and changes the board and undo stack the same way, but keeps the redo stack. |
| `Game.MakeMove` | src/Game.cpp:6-31 | Refused, with nothing changed, off the board, for a value outside 1..9 (0 included) and on a Fixed cell. Otherwise the cell takes the value and the move is pushed with the old and new values. The redo stack is emptied, the correction under Findings. |
| `Game.Undo` | src/Game.cpp:33-41 | A no-op on an empty undo stack. Otherwise the top move's cell gets its old value back, no other cell or state changes, and the move passes from the undo stack to the redo stack (the total number of moves is kept). |
| `Game.Redo` | src/Game.cpp:43-51 | A no-op on an empty redo stack. Otherwise the top move's cell gets its new value again, nothing else changes, and the move passes back to the undo stack. |
| `Game.ResetGame` | src/Game.cpp:53-56 | Editable cells are cleared, Fixed cells and states kept, and both stacks emptied. |
| `Game.ClearHistory` | src/Game.cpp:67-70 | Both stacks are emptied and the board is untouched. |
| `Game.IsSolved` | src/Game.cpp:59-61 | True exactly when no cell is empty and no unit repeats a digit. |
| `Game.MakeMoveHistory` | src/Game.cpp:6-31 | The corrected `Game.MakeMove`, which empties the redo stack, keeps both histories consistent with the board: undoing, or redoing, the stacked moves from the top finds each move's value in its cell. |
| `Game.UndoHistory` | src/Game.cpp:33-41 | So does an undo. |
| `Game.RedoHistory` | src/Game.cpp:43-51 | So does a redo. |
| `Game.UndoMakeMove` | src/Game.cpp:15-39 | For the corrected `Game.MakeMove` (see Findings), undoing an accepted move restores the board and the undo stack, and leaves exactly that move to redo. With the program's makeMove, the older redo entries would remain below it. |
| `Game.RedoUndo` | src/Game.cpp:33-51 | With consistent histories, a redo right after an undo restores the game state exactly. |
| `Game.UndoRedo` | src/Game.cpp:33-51 | With consistent histories, an undo right after a redo restores the game state exactly. |
| `Game.MoveKeepsReset` | src/Game.cpp:15-22 | A move only touches an Editable cell: resetting afterwards gives the same board as resetting before. |
| `Game.UndoKeepsReset` | src/Game.cpp:33-41 | The same for an undo. |
| `Game.RedoKeepsReset` | src/Game.cpp:43-51 | The same for a redo. |
| `Game.StaleRedo` | src/Game.cpp:27 | With the redo stack kept across a new move, histories go out of step with the board. On an empty board: 5 at (0,0), undo, 7 at (0,0). The corner shows 7, but a redo followed by an undo leaves it 0. |

## Left out

- Candidate sets (pencil marks): `updateAllCandidates`, `updateCandidatesForCell`, `clearCellCandidates`, `setCandidates`, `getCandidates`, `toggleCandidate`. They are declared in include/Grid.hpp:27-33, and src/Grid.cpp defines no bodies for them. The candidate fields of `Move` are dropped, and `set` never touches candidates.
- Console input and output (`readPuzzleFromConsole`, `printBoard`, `prettyPrintBoard`) are stream plumbing.
- The text of exception messages: errors are modelled by kind, with the row, column, character or length they report (counted in characters, see the Board.LoadLine line below). Rows and columns are kept 0-based, while the messages print `row + 1` and `col + 1` (src/Grid.cpp:54, 65).
- The random number generator (`std::mt19937`, `std::random_device`, `std::shuffle`): its outputs are parameters (the three permutations and the cell order).
- `getGrid` is a read of the game's board (`s.grid`).
- Board.GetCellState: a plain read with no contract of its own, modelling `getCellState`. It has no bounds check in the program, so it requires the indices to be on the board, since out of range is undefined behaviour there.
- Board.SetCellState: requires the indices to be on the board for the same reason.
- `fillRemaining` is declared (include/Generator.hpp:25), but src/Generator.cpp defines no body for it and nothing calls it. `generate` calls `solve(grid, Solver::Strategy::BRUTE_FORCE)` (src/Generator.cpp:12), while include/Solver.hpp declares no `Strategy`; the call is modelled as `solve(grid)`, that is `solveHelper(grid, 0, 0)`.
- Solver.CountFrom: its own contract says only that the count is never negative. That the count, capped at 2, is the number of solutions is stated by Solver.CountFromClass, because it holds only on valid boards whose empty cells are Editable (next line). It also requires 0 <= row <= 9 and 0 <= col <= 9, as do Solver.CountOn and Solver.SolveFrom. `countSolutions` is public (include/Solver.hpp:13) and takes any ints, but every call in the program passes (0, 0). Other arguments are not modelled: there the program throws `std::out_of_range` from `get`, returns 1 for row 9 whatever the column, and moves on to the next row from column 9 (so (-1, 9) restarts at (0, 0)).
- Solver.SolveCorrect: assumes a valid board whose empty cells are Editable. On a Fixed empty cell `set` is a no-op, so the search would silently skip that cell. On an invalid board the search never checks the clues against each other: a full board of 1s makes `solve` succeed, `countSolutions` return 1 and `hasUniqueSolution` hold, yet it has no solution. The functions themselves accept any well-formed board.
- Solver.SolveLeast: the same assumption as Solver.SolveCorrect, for the same reason.
- Solver.SolveFromCorrect: the same assumption as Solver.SolveCorrect, for the same reason.
- Solver.SolveFromLeast: the same assumption as Solver.SolveCorrect, for the same reason.
- Solver.CountFromClass: the same assumption as Solver.SolveCorrect, for the same reason.
- Solver.HasUniqueSolutionIff: the same assumption as Solver.SolveCorrect, for the same reason.
- Solver.UniqueIffClass: the same assumption as Solver.SolveCorrect, for the same reason; on the full board of 1s `hasUniqueSolution` holds while the board has no solution.
- Generator.Generate: the unique-solution results hold when `seeded`, which the contract equates with the diagonal fill having a solution. That every diagonal fill of three permutations has a solution is true of Sudoku but not proved here. Without it, the model still proves a valid puzzle with at most one solution.
- Generator.RemoveNumbers: requires every cell Editable, as it is when `generate` calls it. On a Fixed clue `set(row, col, 0)` is a no-op, yet the program would still decrement `currentClues`, so its count would drift from `countFilledCells`.
- Board.LoadLine: a line is a sequence of characters, while `line.length()` and `line[col]` (src/Grid.cpp:51, 60) count bytes. On ASCII lines the two agree. On a line with a multi-byte UTF-8 character the reported error can differ: `"12345678é"` is 10 bytes, so the program reports a wrong length where the model reports a non-digit at column 8 after writing columns 0 to 7 of that row, which the program leaves untouched; for `"1234567é"` the roles swap. Whether a line passes and which exception is thrown are the same, since a passing line is nine ASCII digits in both.
- Board.LoadRows: the same character-for-byte reading as Board.LoadLine.
- `loadFromStrings` writes cells as it reads and throws part-way. The model keeps those partial writes (`Board.LoadFromStringsCells`) rather than giving a strong exception guarantee.
- Integer widths: every value is at most 9, every clue count at most 81, and `countSolutions` at most one more than the number of empty cells (its loop adds to a total below 2), so nothing wraps.

## Findings

| source | as written | input that shows it | evidently intended | confidence | as-written member | corrected member |
|---|---|---|---|---|---|---|
| src/Game.cpp:6-31 | `makeMove` pushes onto the undo stack but never clears the redo stack, so a later `redo` replays a move recorded on a different board. | Empty board: `makeMove(0,0,5)`, `undo()`, `makeMove(0,0,7)`, then `redo()`, `undo()`. The cell that showed 7 shows 0, although redo then undo should give back the board it started from. | A new move empties the redo stack, so that undo and redo stay inverse (redo then undo is a no-op). | medium, not executed | `Game.MakeMoveKeepingRedo`, `Game.StaleRedo` | `Game.MakeMove`, `Game.UndoRedo`, `Game.MakeMoveHistory`, `Game.UndoMakeMove` |

=== FILE: board.dfy ===
/** The 9x9 Sudoku board: cell values 0..9 (0 is an empty cell), a per-cell
    Editable/Fixed state, bounds-checked access, loading from nine lines of
    text, and the validity and completeness checks.

    A board is a value: every operation that the program performs in place
    returns the new board instead. */
module Board {

  const Size := 9     // cells per row, per column and per box
  const BoxSize := 3  // rows (and columns) of one box
  const Empty := 0    // the value of an unfilled cell

  /** Editable is listed first: a loaded digit d gets the state whose ordinal is (d != 0). */
  datatype CellState = Editable | Fixed

  /** Why a request was refused with InvalidArgument. */
  datatype Reason =
    | ValueOutOfRange
    | WrongLineCount(lines: int)
    | WrongLineLength(row: int, length: int)
    | NotADigit(row: int, col: int, ch: char)

  /** The two exception kinds the board raises; message text is not modelled. */
  datatype Error = OutOfRange | InvalidArgument(reason: Reason)

  datatype Result<T> = Ok(value: T) | Err(error: Error)

  datatype Outcome = Pass | Fail(error: Error)

  type Cells = seq<seq<int>>

  datatype Grid = Grid(cells: Cells, states: seq<seq<CellState>>)

  predicate InRange(row: int, col: int) {
    0 <= row < Size && 0 <= col < Size
  }

  /** Nine rows of nine entries. */
  predicate Shaped<T>(m: seq<seq<T>>) {
    |m| == Size && forall r :: 0 <= r < Size ==> |m[r]| == Size
  }

  predicate ValuesInRange(v: Cells)
    requires Shaped(v)
  {
    forall r, c :: 0 <= r < Size && 0 <= c < Size ==> 0 <= v[r][c] <= Size
  }

  /** What the fixed-size arrays of the program and the checks of set and
      loadFromStrings guarantee of every board. */
  predicate WF(g: Grid) {
    Shaped(g.cells) && Shaped(g.states) && ValuesInRange(g.cells)
  }

  /** Cell (r, c) comes strictly before cell (row, col) in row-major order. */
  predicate Before(r: int, c: int, row: int, col: int) {
    r < row || (r == row && c < col)
  }

  // ---------------------------------------------------------------------------
  // Construction, access and mutation
  // ---------------------------------------------------------------------------

  /** A freshly constructed board. */
  function New(): (g: Grid)
    ensures WF(g)
    ensures forall r, c :: InRange(r, c) ==> g.cells[r][c] == Empty && g.states[r][c] == Editable
  {
    Grid(seq(Size, _ => seq(Size, _ => Empty)), seq(Size, _ => seq(Size, _ => Editable)))
  }

  function Get(g: Grid, row: int, col: int): (r: Result<int>)
    requires WF(g)
    ensures r.Err? <==> !InRange(row, col)
    ensures r.Err? ==> r.error == OutOfRange
    ensures r.Ok? ==> r.value == g.cells[row][col] && 0 <= r.value <= Size
  {
    if !InRange(row, col) then Err(OutOfRange) else Ok(g.cells[row][col])
  }

  /** The write that set performs once its arguments have been checked:
      an Editable cell takes the value, a Fixed cell is left alone. */
  function Write(g: Grid, row: int, col: int, val: int): (g': Grid)
    requires WF(g) && InRange(row, col) && 0 <= val <= Size
    ensures WF(g') && g'.states == g.states
    ensures g.states[row][col] == Fixed ==> g' == g
    ensures g.states[row][col] == Editable ==> g'.cells[row][col] == val
    ensures forall r, c :: InRange(r, c) && (r != row || c != col) ==> g'.cells[r][c] == g.cells[r][c]
  {
    if g.states[row][col] == Editable then g.(cells := g.cells[row := g.cells[row][col := val]]) else g
  }

  /** Indices are checked first, then the value, and only then the cell state:
      a bad value is refused even on a Fixed cell. */
  function Set(g: Grid, row: int, col: int, val: int): (r: Result<Grid>)
    requires WF(g)
    ensures !InRange(row, col) ==> r == Err(OutOfRange)
    ensures InRange(row, col) && !(0 <= val <= Size) ==> r == Err(InvalidArgument(ValueOutOfRange))
    ensures r.Ok? <==> InRange(row, col) && 0 <= val <= Size
    ensures r.Ok? ==> WF(r.value) && r.value.states == g.states
    ensures r.Ok? && g.states[row][col] == Fixed ==> r.value == g
    ensures r.Ok? && g.states[row][col] == Editable ==>
      r.value.cells[row][col] == val &&
      forall r', c' :: InRange(r', c') && (r' != row || c' != col) ==> r.value.cells[r'][c'] == g.cells[r'][c']
  {
    if !InRange(row, col) then Err(OutOfRange)
    else if val < 0 || val > Size then Err(InvalidArgument(ValueOutOfRange))
    else Ok(Write(g, row, col, val))
  }

  /** No bounds check in the program: out-of-range indices are undefined behaviour. */
  function GetCellState(g: Grid, row: int, col: int): CellState
    requires WF(g) && InRange(row, col)
  {
    g.states[row][col]
  }

  function SetCellState(g: Grid, row: int, col: int, state: CellState): (g': Grid)
    requires WF(g) && InRange(row, col)
    ensures WF(g') && g'.cells == g.cells
    ensures g'.states[row][col] == state
    ensures forall r, c :: InRange(r, c) && (r != row || c != col) ==> g'.states[r][c] == g.states[r][c]
  {
    g.(states := g.states[row := g.states[row][col := state]])
  }

  /** Clears every Editable cell; Fixed cells and all states stay as they are. */
  function Reset(g: Grid): (g': Grid)
    requires WF(g)
    ensures WF(g') && g'.states == g.states
    ensures forall r, c :: InRange(r, c) && g.states[r][c] == Editable ==> g'.cells[r][c] == Empty
    ensures forall r, c :: InRange(r, c) && g.states[r][c] == Fixed ==> g'.cells[r][c] == g.cells[r][c]
  {
    Grid(seq(Size, r requires 0 <= r < Size =>
           seq(Size, c requires 0 <= c < Size =>
             if g.states[r][c] == Editable then Empty else g.cells[r][c])),
         g.states)
  }

  /** Two boards of the right shape that agree on every cell are equal. */
  lemma CellsExt(a: Cells, b: Cells)
    requires Shaped(a) && Shaped(b)
    requires forall r, c :: InRange(r, c) ==> a[r][c] == b[r][c]
    ensures a == b
  {
    forall r | 0 <= r < Size
      ensures a[r] == b[r]
    {
      assert forall c :: 0 <= c < Size ==> a[r][c] == b[r][c];
    }
  }

  lemma GridExt(a: Grid, b: Grid)
    requires WF(a) && WF(b) && a.states == b.states
    requires forall r, c :: InRange(r, c) ==> a.cells[r][c] == b.cells[r][c]
    ensures a == b
  {
    CellsExt(a.cells, b.cells);
  }

  /** Resetting twice is resetting once. */
  lemma ResetIdempotent(g: Grid)
    requires WF(g)
    ensures Reset(Reset(g)) == Reset(g)
  {
    GridExt(Reset(Reset(g)), Reset(g));
  }

  /** Reset erases every write that set accepted: whatever was written since,
      the board resets to the same thing. */
  lemma ResetDiscardsSet(g: Grid, row: int, col: int, val: int)
    requires WF(g) && Set(g, row, col, val).Ok?
    ensures Reset(Set(g, row, col, val).value) == Reset(g)
  {
    GridExt(Reset(Set(g, row, col, val).value), Reset(g));
  }

  /** Writing back the value a cell held undoes a write to it. */
  lemma WriteBack(g: Grid, row: int, col: int, val: int)
    requires WF(g) && InRange(row, col) && 0 <= val <= Size
    ensures Write(Write(g, row, col, val), row, col, g.cells[row][col]) == g
  {
    if g.states[row][col] == Editable {
      GridExt(Write(Write(g, row, col, val), row, col, g.cells[row][col]), g);
    }
  }

  /** A Fixed cell reads the same after any accepted set. */
  lemma SetKeepsFixed(g: Grid, row: int, col: int, val: int)
    requires WF(g) && InRange(row, col) && g.states[row][col] == Fixed
    ensures Set(g, row, col, val).Ok? ==> Get(Set(g, row, col, val).value, row, col) == Get(g, row, col)
  {
  }

  // ---------------------------------------------------------------------------
  // Boxes, units and validity
  // ---------------------------------------------------------------------------

  /** Boxes are numbered 0..8 row-major: the quotient names the band of rows,
      the remainder the stack of columns. */
  function BoxIndex(row: int, col: int): (k: int)
    requires InRange(row, col)
    ensures 0 <= k < Size
    ensures k / BoxSize == row / BoxSize && k % BoxSize == col / BoxSize
  {
    (row / BoxSize) * BoxSize + col / BoxSize
  }

  lemma SameBox(r1: int, c1: int, r2: int, c2: int)
    requires InRange(r1, c1) && InRange(r2, c2)
    ensures BoxIndex(r1, c1) == BoxIndex(r2, c2) <==> r1 / BoxSize == r2 / BoxSize && c1 / BoxSize == c2 / BoxSize
  {
    var k1, k2 := BoxIndex(r1, c1), BoxIndex(r2, c2);
    assert k1 == (k1 / BoxSize) * BoxSize + k1 % BoxSize;
    assert k2 == (k2 / BoxSize) * BoxSize + k2 % BoxSize;
  }

  /** Two cells share a row, a column or a box. */
  predicate SameUnit(r1: int, c1: int, r2: int, c2: int)
    requires InRange(r1, c1) && InRange(r2, c2)
  {
    r1 == r2 || c1 == c2 || BoxIndex(r1, c1) == BoxIndex(r2, c2)
  }

  /** No unit holds the same non-zero digit twice; empty cells are ignored. */
  ghost predicate Valid(v: Cells)
    requires Shaped(v)
  {
    forall r1, c1, r2, c2 {:trigger SameUnit(r1, c1, r2, c2)} ::
      InRange(r1, c1) && InRange(r2, c2) && (r1 != r2 || c1 != c2) &&
      SameUnit(r1, c1, r2, c2) && v[r1][c1] != Empty
      ==> v[r1][c1] != v[r2][c2]
  }

  /** Valid, restricted to the cells before (row, col). */
  ghost predicate ValidBefore(v: Cells, row: int, col: int)
    requires Shaped(v)
  {
    forall r1, c1, r2, c2 {:trigger SameUnit(r1, c1, r2, c2)} ::
      InRange(r1, c1) && InRange(r2, c2) && Before(r1, c1, row, col) && Before(r2, c2, row, col) &&
      (r1 != r2 || c1 != c2) && SameUnit(r1, c1, r2, c2) && v[r1][c1] != Empty
      ==> v[r1][c1] != v[r2][c2]
  }

  ghost predicate Filled(v: Cells)
    requires Shaped(v)
  {
    forall r, c :: InRange(r, c) ==> v[r][c] != Empty
  }

  ghost predicate Complete(v: Cells)
    requires Shaped(v)
  {
    Filled(v) && Valid(v)
  }

  // ---------------------------------------------------------------------------
  // The validity scan
  // ---------------------------------------------------------------------------

  /** The scan's "seen" tables, indexed by row, column or box and then by
      digit - 1. */
  datatype Marks = Marks(row: seq<seq<bool>>, col: seq<seq<bool>>, box: seq<seq<bool>>)

  /** For the proof only: the cell that set each mark (its column for a row
      mark, its row for a column mark, its position for a box mark). */
  datatype Witness = Witness(row: Positions, col: Positions, box: seq<seq<(int, int)>>)

  /** A table of row or column indices, by unit and then by digit - 1. */
  type Positions = seq<seq<int>>

  function NoMarks(): Marks {
    Marks(seq(Size, _ => seq(Size, _ => false)), seq(Size, _ => seq(Size, _ => false)),
          seq(Size, _ => seq(Size, _ => false)))
  }

  function NoWitness(): Witness {
    Witness(seq(Size, _ => seq(Size, _ => 0)), seq(Size, _ => seq(Size, _ => 0)),
            seq(Size, _ => seq(Size, _ => (0, 0))))
  }

  predicate MarksShaped(m: Marks) {
    Shaped(m.row) && Shaped(m.col) && Shaped(m.box)
  }

  predicate WitnessShaped(w: Witness) {
    Shaped(w.row) && Shaped(w.col) && Shaped(w.box)
  }

  /** The digit of (i, j) is already marked in its row, its column or its box. */
  predicate Seen(v: Cells, m: Marks, i: int, j: int)
    requires Shaped(v) && MarksShaped(m) && InRange(i, j) && 1 <= v[i][j] <= Size
  {
    var num := v[i][j] - 1;
    m.row[i][num] || m.col[j][num] || m.box[BoxIndex(i, j)][num]
  }

  /** Marks the digit of (i, j) in its row, its column and its box. */
  function Mark(v: Cells, m: Marks, i: int, j: int): (m': Marks)
    requires Shaped(v) && MarksShaped(m) && InRange(i, j) && 1 <= v[i][j] <= Size
    ensures MarksShaped(m')
  {
    var num, k := v[i][j] - 1, BoxIndex(i, j);
    Marks(m.row[i := m.row[i][num := true]], m.col[j := m.col[j][num := true]],
          m.box[k := m.box[k][num := true]])
  }

  function Record(v: Cells, w: Witness, i: int, j: int): (w': Witness)
    requires Shaped(v) && WitnessShaped(w) && InRange(i, j) && 1 <= v[i][j] <= Size
    ensures WitnessShaped(w')
  {
    var num, k := v[i][j] - 1, BoxIndex(i, j);
    Witness(w.row[i := w.row[i][num := j]], w.col[j := w.col[j][num := i]],
            w.box[k := w.box[k][num := (i, j)]])
  }

  /** Every row mark was set by an earlier cell of that row holding the digit;
      rowAt records the column of that cell. */
  ghost predicate RowMarks(v: Cells, rowSeen: seq<seq<bool>>, rowAt: Positions, i: int, j: int)
    requires Shaped(v) && Shaped(rowSeen) && Shaped(rowAt)
  {
    forall a, d :: InRange(a, d) && rowSeen[a][d] ==>
      0 <= rowAt[a][d] < Size && Before(a, rowAt[a][d], i, j) && v[a][rowAt[a][d]] == d + 1
  }

  /** The same for column marks; colAt records the row of the cell. */
  ghost predicate ColMarks(v: Cells, colSeen: seq<seq<bool>>, colAt: Positions, i: int, j: int)
    requires Shaped(v) && Shaped(colSeen) && Shaped(colAt)
  {
    forall b, d :: InRange(b, d) && colSeen[b][d] ==>
      0 <= colAt[b][d] < Size && Before(colAt[b][d], b, i, j) && v[colAt[b][d]][b] == d + 1
  }

  /** The same for box marks; boxAt records the position of the cell. */
  ghost predicate BoxMarks(v: Cells, boxSeen: seq<seq<bool>>, boxAt: seq<seq<(int, int)>>, i: int, j: int)
    requires Shaped(v) && Shaped(boxSeen) && Shaped(boxAt)
  {
    forall k, d :: InRange(k, d) && boxSeen[k][d] ==>
      InRange(boxAt[k][d].0, boxAt[k][d].1) && Before(boxAt[k][d].0, boxAt[k][d].1, i, j) &&
      BoxIndex(boxAt[k][d].0, boxAt[k][d].1) == k && v[boxAt[k][d].0][boxAt[k][d].1] == d + 1
  }

  /** Every earlier non-empty cell has set its three marks. */
  ghost predicate AllMarked(v: Cells, m: Marks, i: int, j: int)
    requires Shaped(v) && ValuesInRange(v) && MarksShaped(m)
  {
    forall a, b :: InRange(a, b) && Before(a, b, i, j) && v[a][b] != Empty ==>
      m.row[a][v[a][b] - 1] && m.col[b][v[a][b] - 1] && m.box[BoxIndex(a, b)][v[a][b] - 1]
  }

  /** The state of the scan at cell (i, j): the marks are exactly explained by
      the earlier cells, and the earlier cells hold no repeated digit. */
  ghost predicate Scanned(v: Cells, m: Marks, w: Witness, i: int, j: int)
    requires Shaped(v) && ValuesInRange(v)
  {
    && MarksShaped(m) && WitnessShaped(w)
    && RowMarks(v, m.row, w.row, i, j)
    && ColMarks(v, m.col, w.col, i, j)
    && BoxMarks(v, m.box, w.box, i, j)
    && AllMarked(v, m, i, j)
    && ValidBefore(v, i, j)
  }

  lemma ScanStart(v: Cells)
    requires Shaped(v) && ValuesInRange(v)
    ensures Scanned(v, NoMarks(), NoWitness(), 0, 0)
  {
  }

  lemma ScanEmptyCell(v: Cells, m: Marks, w: Witness, i: int, j: int)
    requires Shaped(v) && ValuesInRange(v) && InRange(i, j) && v[i][j] == Empty
    requires Scanned(v, m, w, i, j)
    ensures Scanned(v, m, w, i, j + 1)
  {
    assert AllMarked(v, m, i, j + 1) by {
      forall a, b | InRange(a, b) && Before(a, b, i, j + 1) && v[a][b] != Empty
        ensures m.row[a][v[a][b] - 1] && m.col[b][v[a][b] - 1] && m.box[BoxIndex(a, b)][v[a][b] - 1]
      {
        assert Before(a, b, i, j);
      }
    }
    assert ValidBefore(v, i, j + 1) by {
      forall r1, c1, r2, c2 |
        InRange(r1, c1) && InRange(r2, c2) && Before(r1, c1, i, j + 1) && Before(r2, c2, i, j + 1) &&
        (r1 != r2 || c1 != c2) && SameUnit(r1, c1, r2, c2) && v[r1][c1] != Empty
        ensures v[r1][c1] != v[r2][c2]
      {
        if r1 == i && c1 == j {
        } else if r2 == i && c2 == j {
        } else {
          assert Before(r1, c1, i, j) && Before(r2, c2, i, j);
        }
      }
    }
  }

  /** A mark already set for the digit of (i, j) names an earlier cell of the
      same unit holding that digit. */
  lemma ScanConflict(v: Cells, m: Marks, w: Witness, i: int, j: int)
    requires Shaped(v) && ValuesInRange(v) && InRange(i, j) && v[i][j] != Empty
    requires Scanned(v, m, w, i, j) && Seen(v, m, i, j)
    ensures !Valid(v)
  {
    var num := v[i][j] - 1;
    if m.row[i][num] {
      var c := w.row[i][num];
      assert SameUnit(i, j, i, c) && v[i][c] == v[i][j];
    } else if m.col[j][num] {
      var r := w.col[j][num];
      assert SameUnit(i, j, r, j) && v[r][j] == v[i][j];
    } else {
      var (r, c) := w.box[BoxIndex(i, j)][num];
      assert SameUnit(i, j, r, c) && v[r][c] == v[i][j];
    }
  }

  /** An earlier cell of the same unit holding the digit of (i, j) has set one
      of the three marks that (i, j) consults. */
  lemma ScanPeerMarked(v: Cells, m: Marks, i: int, j: int, r: int, c: int)
    requires Shaped(v) && ValuesInRange(v) && InRange(i, j) && v[i][j] != Empty
    requires MarksShaped(m) && AllMarked(v, m, i, j)
    requires InRange(r, c) && Before(r, c, i, j) && SameUnit(i, j, r, c) && v[r][c] == v[i][j]
    ensures Seen(v, m, i, j)
  {
    var num := v[i][j] - 1;
    assert m.row[r][num] && m.col[c][num] && m.box[BoxIndex(r, c)][num];
    if r == i {
    } else if c == j {
    } else {
      assert BoxIndex(r, c) == BoxIndex(i, j);
    }
  }

  lemma ScanMarkValid(v: Cells, m: Marks, i: int, j: int)
    requires Shaped(v) && ValuesInRange(v) && InRange(i, j) && v[i][j] != Empty
    requires MarksShaped(m) && AllMarked(v, m, i, j) && ValidBefore(v, i, j)
    requires !Seen(v, m, i, j)
    ensures ValidBefore(v, i, j + 1)
  {
    forall r1, c1, r2, c2 |
      InRange(r1, c1) && InRange(r2, c2) && Before(r1, c1, i, j + 1) && Before(r2, c2, i, j + 1) &&
      (r1 != r2 || c1 != c2) && SameUnit(r1, c1, r2, c2) && v[r1][c1] != Empty
      ensures v[r1][c1] != v[r2][c2]
    {
      if r1 == i && c1 == j {
        if v[r2][c2] == v[i][j] {
          ScanPeerMarked(v, m, i, j, r2, c2);
        }
      } else if r2 == i && c2 == j {
        if v[r1][c1] == v[i][j] {
          ScanPeerMarked(v, m, i, j, r1, c1);
        }
      } else {
        assert Before(r1, c1, i, j) && Before(r2, c2, i, j);
      }
    }
  }

  lemma RowMarksStep(v: Cells, rowSeen: seq<seq<bool>>, rowAt: Positions, i: int, j: int)
    requires Shaped(v) && Shaped(rowSeen) && Shaped(rowAt) && InRange(i, j) && 1 <= v[i][j] <= Size
    requires RowMarks(v, rowSeen, rowAt, i, j)
    ensures var num := v[i][j] - 1;
      RowMarks(v, rowSeen[i := rowSeen[i][num := true]], rowAt[i := rowAt[i][num := j]], i, j + 1)
  {
  }

  lemma ColMarksStep(v: Cells, colSeen: seq<seq<bool>>, colAt: Positions, i: int, j: int)
    requires Shaped(v) && Shaped(colSeen) && Shaped(colAt) && InRange(i, j) && 1 <= v[i][j] <= Size
    requires ColMarks(v, colSeen, colAt, i, j)
    ensures var num := v[i][j] - 1;
      ColMarks(v, colSeen[j := colSeen[j][num := true]], colAt[j := colAt[j][num := i]], i, j + 1)
  {
  }

  lemma BoxMarksStep(v: Cells, boxSeen: seq<seq<bool>>, boxAt: seq<seq<(int, int)>>, i: int, j: int)
    requires Shaped(v) && Shaped(boxSeen) && Shaped(boxAt) && InRange(i, j) && 1 <= v[i][j] <= Size
    requires BoxMarks(v, boxSeen, boxAt, i, j)
    ensures var num, k := v[i][j] - 1, BoxIndex(i, j);
      BoxMarks(v, boxSeen[k := boxSeen[k][num := true]], boxAt[k := boxAt[k][num := (i, j)]], i, j + 1)
  {
  }

  lemma AllMarkedStep(v: Cells, m: Marks, i: int, j: int)
    requires Shaped(v) && ValuesInRange(v) && InRange(i, j) && v[i][j] != Empty
    requires MarksShaped(m) && AllMarked(v, m, i, j)
    ensures AllMarked(v, Mark(v, m, i, j), i, j + 1)
  {
  }

  /** Marking the digit of (i, j) moves the scan on to the next cell. */
  lemma ScanMark(v: Cells, m: Marks, w: Witness, i: int, j: int)
    requires Shaped(v) && ValuesInRange(v) && InRange(i, j) && v[i][j] != Empty
    requires Scanned(v, m, w, i, j) && !Seen(v, m, i, j)
    ensures Scanned(v, Mark(v, m, i, j), Record(v, w, i, j), i, j + 1)
  {
    ScanMarkValid(v, m, i, j);
    RowMarksStep(v, m.row, w.row, i, j);
    ColMarksStep(v, m.col, w.col, i, j);
    BoxMarksStep(v, m.box, w.box, i, j);
    AllMarkedStep(v, m, i, j);
  }

  lemma ScanNextRow(v: Cells, m: Marks, w: Witness, i: int)
    requires Shaped(v) && ValuesInRange(v) && 0 <= i < Size
    requires Scanned(v, m, w, i, Size)
    ensures Scanned(v, m, w, i + 1, 0)
  {
    assert ValidBefore(v, i + 1, 0) by {
      forall r1, c1, r2, c2 |
        InRange(r1, c1) && InRange(r2, c2) && Before(r1, c1, i + 1, 0) && Before(r2, c2, i + 1, 0) &&
        (r1 != r2 || c1 != c2) && SameUnit(r1, c1, r2, c2) && v[r1][c1] != Empty
        ensures v[r1][c1] != v[r2][c2]
      {
        assert Before(r1, c1, i, Size) && Before(r2, c2, i, Size);
      }
    }
  }

  /** One row of the scan: stops at the first digit already marked in its
      row, column or box. */
  method ScanRow(v: Cells, m: Marks, ghost w: Witness, i: int) returns (ok: bool, m': Marks, ghost w': Witness)
    requires Shaped(v) && ValuesInRange(v) && 0 <= i < Size
    requires Scanned(v, m, w, i, 0)
    ensures ok ==> Scanned(v, m', w', i + 1, 0)
    ensures !ok ==> !Valid(v)
  {
    m', w' := m, w;
    for j := 0 to Size
      invariant Scanned(v, m', w', i, j)
    {
      if v[i][j] == Empty {
        ScanEmptyCell(v, m', w', i, j);
        continue;
      }
      if Seen(v, m', i, j) {
        ScanConflict(v, m', w', i, j);
        return false, m', w';
      }
      ScanMark(v, m', w', i, j);
      m' := Mark(v, m', i, j);
      w' := Record(v, w', i, j);
    }
    ScanNextRow(v, m', w', i);
    ok := true;
  }

  /** The scan of the program: per-row, per-column and per-box "seen" tables,
      filled in row-major order, failing at the first repeated digit. */
  method IsValid(g: Grid) returns (ok: bool)
    requires WF(g)
    ensures ok <==> Valid(g.cells)
  {
    var v := g.cells;
    var m := NoMarks();
    ghost var w := NoWitness();
    ScanStart(v);
    for i := 0 to Size
      invariant Scanned(v, m, w, i, 0)
    {
      ok, m, w := ScanRow(v, m, w, i);
      if !ok {
        return false;
      }
    }
    assert ValidBefore(v, Size, 0);
    return true;
  }

  /** No cell is empty and the scan finds no repeated digit. */
  method IsComplete(g: Grid) returns (ok: bool)
    requires WF(g)
    ensures ok <==> Complete(g.cells)
  {
    for row := 0 to Size
      invariant forall r, c :: InRange(r, c) && r < row ==> g.cells[r][c] != Empty
    {
      for col := 0 to Size
        invariant forall r, c :: InRange(r, c) && Before(r, c, row, col) ==> g.cells[r][c] != Empty
      {
        if g.cells[row][col] == Empty {
          return false;
        }
      }
    }
    ok := IsValid(g);
  }

  // ---------------------------------------------------------------------------
  // Loading from text
  // ---------------------------------------------------------------------------

  predicate IsDigit(ch: char) {
    '0' <= ch <= '9'
  }

  function DigitValue(ch: char): (d: int)
    requires IsDigit(ch)
    ensures 0 <= d <= Size
  {
    ch as int - '0' as int
  }

  predicate LineOk(line: string) {
    |line| == Size && forall k :: 0 <= k < |line| ==> IsDigit(line[k])
  }

  /** The accepted text encoding: nine lines of nine digits. */
  predicate TextOk(lines: seq<string>) {
    |lines| == Size && forall r :: 0 <= r < |lines| ==> LineOk(lines[r])
  }

  /** Cell (r, c) holds the digit of the text, and is Fixed exactly when that digit is not 0. */
  ghost predicate LoadedCell(g: Grid, lines: seq<string>, r: int, c: int)
    requires WF(g) && InRange(r, c)
  {
    r < |lines| && c < |lines[r]| && IsDigit(lines[r][c]) &&
    g.cells[r][c] == DigitValue(lines[r][c]) &&
    (g.states[r][c] == Fixed <==> g.cells[r][c] != Empty)
  }

  /** Every cell before (row, col) in row-major order is loaded from the text and
      every other cell is as it was in g0. */
  ghost predicate LoadedUpTo(g0: Grid, g: Grid, lines: seq<string>, row: int, col: int)
    requires WF(g0) && WF(g)
  {
    forall r, c :: InRange(r, c) ==>
      if Before(r, c, row, col) then LoadedCell(g, lines, r, c)
      else g.cells[r][c] == g0.cells[r][c] && g.states[r][c] == g0.states[r][c]
  }

  /** Where a load stopped: the offending cell, or the end of the board. */
  function StopPosition(o: Outcome): (int, int)
  {
    match o
    case Fail(InvalidArgument(WrongLineCount(_))) => (0, 0)
    case Fail(InvalidArgument(WrongLineLength(row, _))) => (row, 0)
    case Fail(InvalidArgument(NotADigit(row, col, _))) => (row, col)
    case _ => (Size, 0)
  }

  /** The error reports the first character of a line that is not a digit. */
  ghost predicate FirstNonDigit(line: string, row: int, from: int, o: Outcome)
  {
    o.Fail? && o.error.InvalidArgument? && o.error.reason.NotADigit? &&
    o.error.reason.row == row && 0 <= from <= o.error.reason.col < |line| &&
    o.error.reason.ch == line[o.error.reason.col] && !IsDigit(o.error.reason.ch) &&
    forall k :: from <= k < o.error.reason.col ==> IsDigit(line[k])
  }

  /** Cells col..stop-1 of the row hold the digits of the line (Fixed exactly
      when not 0); every other cell is as it was in g. */
  ghost predicate LineLoaded(g: Grid, g': Grid, line: string, row: int, col: int, stop: int)
    requires WF(g) && WF(g') && 0 <= row < Size && |line| == Size
  {
    forall rr, c :: InRange(rr, c) ==>
      if rr == row && col <= c < stop then
        IsDigit(line[c]) && g'.cells[rr][c] == DigitValue(line[c]) &&
        (g'.states[rr][c] == Fixed <==> g'.cells[rr][c] != Empty)
      else g'.cells[rr][c] == g.cells[rr][c] && g'.states[rr][c] == g.states[rr][c]
  }

  function LoadLine(g: Grid, line: string, row: int, col: int): (r: (Grid, Outcome))
    requires WF(g) && 0 <= row < Size && |line| == Size && 0 <= col <= Size
    ensures WF(r.0)
    ensures r.1.Pass? <==> forall k :: col <= k < Size ==> IsDigit(line[k])
    ensures r.1.Fail? ==> FirstNonDigit(line, row, col, r.1)
    ensures LineLoaded(g, r.0, line, row, col, if r.1.Pass? then Size else r.1.error.reason.col)
    decreases Size - col
  {
    if col == Size then (g, Pass)
    else
      var ch := line[col];
      if ch < '0' || ch > '9' then (g, Fail(InvalidArgument(NotADigit(row, col, ch))))
      else
        var val := DigitValue(ch);
        var g' := Grid(g.cells[row := g.cells[row][col := val]],
                       g.states[row := g.states[row][col := if val != 0 then Fixed else Editable]]);
        LoadLine(g', line, row, col + 1)
  }

  /** Loading cells 0..stop-1 of line `row` extends the loaded prefix to them. */
  lemma LineExtends(g0: Grid, g: Grid, g': Grid, lines: seq<string>, row: int, stop: int)
    requires WF(g0) && WF(g) && WF(g') && |lines| == Size && 0 <= row < Size && |lines[row]| == Size
    requires 0 <= stop <= Size
    requires LoadedUpTo(g0, g, lines, row, 0) && LineLoaded(g, g', lines[row], row, 0, stop)
    ensures LoadedUpTo(g0, g', lines, row, stop)
  {
    forall r, c | InRange(r, c)
      ensures if Before(r, c, row, stop) then LoadedCell(g', lines, r, c)
              else g'.cells[r][c] == g0.cells[r][c] && g'.states[r][c] == g0.states[r][c]
    {
      if r < row {
        assert Before(r, c, row, 0) && LoadedCell(g, lines, r, c);
      } else if r == row && c < stop {
        assert IsDigit(lines[row][c]);
      } else {
        assert !Before(r, c, row, 0);
      }
    }
  }

  /** A prefix that ends after the last cell of a row ends at the next row. */
  lemma LoadedNextRow(g0: Grid, g: Grid, lines: seq<string>, row: int)
    requires WF(g0) && WF(g) && LoadedUpTo(g0, g, lines, row, Size)
    ensures LoadedUpTo(g0, g, lines, row + 1, 0)
  {
    forall r, c | InRange(r, c)
      ensures if Before(r, c, row + 1, 0) then LoadedCell(g, lines, r, c)
              else g.cells[r][c] == g0.cells[r][c] && g.states[r][c] == g0.states[r][c]
    {
      assert Before(r, c, row + 1, 0) <==> Before(r, c, row, Size);
    }
  }

  /** Loading one well-sized line extends the loaded prefix to the end of that
      line, or up to its first bad character. */
  lemma LoadLineExtends(g0: Grid, g: Grid, lines: seq<string>, row: int)
    requires WF(g0) && WF(g) && |lines| == Size && 0 <= row < Size && |lines[row]| == Size
    requires LoadedUpTo(g0, g, lines, row, 0)
    ensures var (g', o) := LoadLine(g, lines[row], row, 0);
      if o.Pass? then LoadedUpTo(g0, g', lines, row + 1, 0)
      else LoadedUpTo(g0, g', lines, row, o.error.reason.col)
  {
    var (g', o) := LoadLine(g, lines[row], row, 0);
    var stop := if o.Pass? then Size else o.error.reason.col;
    LineExtends(g0, g, g', lines, row, stop);
    if o.Pass? {
      LoadedNextRow(g0, g', lines, row);
    }
  }

  /** The error reports the first line, from line `from` on, that is too long or
      too short or holds a character that is not a digit. */
  ghost predicate FirstFault(lines: seq<string>, from: int, o: Outcome)
    requires |lines| == Size && 0 <= from
  {
    && o.Fail? && o.error.InvalidArgument?
    && (o.error.reason.WrongLineLength? || o.error.reason.NotADigit?)
    && var bad := o.error.reason.row;
    && from <= bad < Size
    && (forall k :: from <= k < bad ==> LineOk(lines[k]))
    && if o.error.reason.WrongLineLength? then o.error.reason.length == |lines[bad]| != Size
       else |lines[bad]| == Size && FirstNonDigit(lines[bad], bad, 0, o)
  }

  /** Loads lines `row`.. of the text, stopping at the first line that is too
      long or too short or the first character that is not a digit. */
  function LoadRows(g: Grid, lines: seq<string>, row: int): (r: (Grid, Outcome))
    requires WF(g) && |lines| == Size && 0 <= row <= Size
    ensures WF(r.0)
    decreases Size - row
  {
    if row == Size then (g, Pass)
    else if |lines[row]| != Size then (g, Fail(InvalidArgument(WrongLineLength(row, |lines[row]|))))
    else
      var (g', o) := LoadLine(g, lines[row], row, 0);
      if o.Fail? then (g', o)
      else LoadRows(g', lines, row + 1)
  }

  /** Every cell before the place where the load stopped holds the text's digit
      and every cell from there on is untouched. */
  lemma {:induction false} LoadRowsLoaded(g0: Grid, g: Grid, lines: seq<string>, row: int)
    requires WF(g0) && WF(g) && |lines| == Size && 0 <= row <= Size
    requires LoadedUpTo(g0, g, lines, row, 0)
    ensures var r := LoadRows(g, lines, row);
      LoadedUpTo(g0, r.0, lines, StopPosition(r.1).0, StopPosition(r.1).1)
    decreases Size - row
  {
    if row < Size && |lines[row]| == Size {
      var (g', o1) := LoadLine(g, lines[row], row, 0);
      LoadLineExtends(g0, g, lines, row);
      if o1.Pass? {
        LoadRowsLoaded(g0, g', lines, row + 1);
      }
    }
  }

  /** A load from line `row` on succeeds only when every remaining line is nine
      digits (the converse follows from LoadRowsFault). */
  lemma {:induction false} LoadRowsPass(g: Grid, lines: seq<string>, row: int)
    requires WF(g) && |lines| == Size && 0 <= row <= Size
    ensures LoadRows(g, lines, row).1.Pass? ==> forall k :: row <= k < Size ==> LineOk(lines[k])
    decreases Size - row
  {
    if row < Size && |lines[row]| == Size {
      var (g', o1) := LoadLine(g, lines[row], row, 0);
      if o1.Pass? {
        assert LoadRows(g, lines, row) == LoadRows(g', lines, row + 1);
        LoadRowsPass(g', lines, row + 1);
        if LoadRows(g', lines, row + 1).1.Pass? {
          forall k | row <= k < Size ensures LineOk(lines[k]) {
            if k == row {
              assert forall j :: 0 <= j < Size ==> IsDigit(lines[row][j]);
            }
          }
        }
      } else {
        assert LoadRows(g, lines, row).1 == o1;
      }
    }
  }

  /** A fault after a line of nine digits is also the first fault from that line on. */
  lemma FirstFaultStep(lines: seq<string>, row: int, o: Outcome)
    requires |lines| == Size && 0 <= row < Size && |lines[row]| == Size
    requires forall k :: 0 <= k < Size ==> IsDigit(lines[row][k])
    requires FirstFault(lines, row + 1, o)
    ensures FirstFault(lines, row, o)
  {
    assert LineOk(lines[row]);
  }

  /** A failed load from line `row` on reports the first fault from there. */
  lemma {:induction false} LoadRowsFault(g: Grid, lines: seq<string>, row: int)
    requires WF(g) && |lines| == Size && 0 <= row <= Size
    ensures LoadRows(g, lines, row).1.Fail? ==> FirstFault(lines, row, LoadRows(g, lines, row).1)
    decreases Size - row
  {
    if row < Size && |lines[row]| == Size {
      var (g', o1) := LoadLine(g, lines[row], row, 0);
      if o1.Pass? {
        assert LoadRows(g, lines, row) == LoadRows(g', lines, row + 1);
        LoadRowsFault(g', lines, row + 1);
        var o := LoadRows(g', lines, row + 1).1;
        if o.Fail? {
          FirstFaultStep(lines, row, o);
        }
      } else {
        assert LoadRows(g, lines, row).1 == o1;
      }
    }
  }

  /** Nine lines of nine digits; a wrong line count is refused before anything
      is written, while a bad line or character is found only after the cells
      before it have been overwritten (see LoadFromStringsCells). */
  function LoadFromStrings(g: Grid, lines: seq<string>): (r: (Grid, Outcome))
    requires WF(g)
    ensures WF(r.0)
    ensures r.1.Pass? <==> TextOk(lines)
    ensures |lines| != Size ==> r == (g, Fail(InvalidArgument(WrongLineCount(|lines|))))
    ensures r.1.Fail? && |lines| == Size ==> FirstFault(lines, 0, r.1)
    ensures r.1.Fail? ==> r.1.error.InvalidArgument?
  {
    if |lines| != Size then (g, Fail(InvalidArgument(WrongLineCount(|lines|))))
    else
      LoadRowsPass(g, lines, 0);
      LoadRowsFault(g, lines, 0);
      var r := LoadRows(g, lines, 0);
      if r.1.Fail? then
        assert !LineOk(lines[r.1.error.reason.row]);
        r
      else r
  }

  /** The cells a load leaves behind: on success every cell holds its digit and
      is Fixed exactly when not 0; on failure the cells before the fault are
      loaded and the rest are untouched. */
  lemma LoadFromStringsCells(g: Grid, lines: seq<string>)
    requires WF(g)
    ensures var r := LoadFromStrings(g, lines);
      LoadedUpTo(g, r.0, lines, StopPosition(r.1).0, StopPosition(r.1).1)
    ensures var r := LoadFromStrings(g, lines);
      r.1.Pass? ==> forall row, col :: InRange(row, col) ==>
        r.0.cells[row][col] == DigitValue(lines[row][col]) &&
        (r.0.states[row][col] == Fixed <==> r.0.cells[row][col] != Empty)
  {
    if |lines| == Size {
      LoadRowsLoaded(g, g, lines, 0);
    }
  }
}

=== FILE: game.dfy ===
/** A game in progress: the board the player fills in, with undo and redo
    histories of the moves made. */
module Game {
  import opened Board

  /** One player move: the cell, the value it held before and the value written. */
  datatype Move = Move(row: int, col: int, oldValue: int, newValue: int)

  /** The board and the two history stacks; the top of a stack is its last element. */
  datatype GameState = GameState(grid: Grid, undoStack: seq<Move>, redoStack: seq<Move>)

  /** m is a move as makeMove records it on a board with these cell states:
      on the board, of a value read from it, to a digit, at an Editable cell. */
  ghost predicate MoveOk(states: seq<seq<CellState>>, m: Move)
    requires Shaped(states)
  {
    InRange(m.row, m.col) && 0 <= m.oldValue <= Size && 1 <= m.newValue <= Size &&
    states[m.row][m.col] == Editable
  }

  ghost predicate MovesOk(states: seq<seq<CellState>>, moves: seq<Move>)
    requires Shaped(states)
  {
    forall i :: 0 <= i < |moves| ==> MoveOk(states, moves[i])
  }

  /** What the game keeps true: a well-formed board, and only moves makeMove
      could have recorded on either stack. */
  ghost predicate Inv(s: GameState) {
    WF(s.grid) && MovesOk(s.grid.states, s.undoStack) && MovesOk(s.grid.states, s.redoStack)
  }

  /** Undoing the moves from the top down, starting from board g, finds each
      move's new value in its cell. */
  ghost predicate UndoChain(g: Grid, moves: seq<Move>)
    requires WF(g) && MovesOk(g.states, moves)
    decreases |moves|
  {
    moves == [] ||
    (var m := moves[|moves| - 1];
     assert MoveOk(g.states, moves[|moves| - 1]);
     g.cells[m.row][m.col] == m.newValue &&
     UndoChain(Write(g, m.row, m.col, m.oldValue), moves[..|moves| - 1]))
  }

  /** Redoing the moves from the top down, starting from board g, finds each
      move's old value in its cell. */
  ghost predicate RedoChain(g: Grid, moves: seq<Move>)
    requires WF(g) && MovesOk(g.states, moves)
    decreases |moves|
  {
    moves == [] ||
    (var m := moves[|moves| - 1];
     assert MoveOk(g.states, moves[|moves| - 1]);
     g.cells[m.row][m.col] == m.oldValue &&
     RedoChain(Write(g, m.row, m.col, m.newValue), moves[..|moves| - 1]))
  }

  /** Both histories agree with the board. */
  ghost predicate History(s: GameState) {
    Inv(s) && UndoChain(s.grid, s.undoStack) && RedoChain(s.grid, s.redoStack)
  }

  /** The constructor: a game on a given board, with empty histories. */
  function NewGame(g: Grid): (s: GameState)
    requires WF(g)
    ensures History(s) && s.grid == g
    ensures s.undoStack == [] && s.redoStack == []
  {
    GameState(g, [], [])
  }

  // ---------------------------------------------------------------------------
  // makeMove
  // ---------------------------------------------------------------------------

  /** makeMove: refused off the board, for a value outside 1..9 and on a Fixed
      cell; otherwise the value is written and the move is recorded. The redo
      history is dropped, since it no longer applies to the board. */
  function MakeMove(s: GameState, row: int, col: int, value: int): (r: (bool, GameState))
    requires WF(s.grid)
    ensures r.0 <==> InRange(row, col) && 1 <= value <= Size && s.grid.states[row][col] == Editable
    ensures !r.0 ==> r.1 == s
    ensures r.0 ==> r.1.grid == Write(s.grid, row, col, value) && r.1.grid.cells[row][col] == value
    ensures r.0 ==> r.1.undoStack == s.undoStack + [Move(row, col, s.grid.cells[row][col], value)]
    ensures r.0 ==> r.1.redoStack == []
    ensures Inv(s) ==> Inv(r.1)
  {
    if !InRange(row, col) then (false, s)
    else if value < 1 || value > Size then (false, s)
    else if GetCellState(s.grid, row, col) == Editable then
      var move := Move(row, col, Get(s.grid, row, col).value, value);
      (true, GameState(Write(s.grid, row, col, value), s.undoStack + [move], []))
    else (false, s)
  }

  /** makeMove as the program has it: the redo history survives a new move. */
  function MakeMoveKeepingRedo(s: GameState, row: int, col: int, value: int): (r: (bool, GameState))
    requires WF(s.grid)
    ensures r.0 <==> MakeMove(s, row, col, value).0
    ensures r.1 == if r.0 then MakeMove(s, row, col, value).1.(redoStack := s.redoStack) else s
    ensures Inv(s) ==> Inv(r.1)
  {
    if !InRange(row, col) then (false, s)
    else if value < 1 || value > Size then (false, s)
    else if GetCellState(s.grid, row, col) == Editable then
      var move := Move(row, col, Get(s.grid, row, col).value, value);
      (true, GameState(Write(s.grid, row, col, value), s.undoStack + [move], s.redoStack))
    else (false, s)
  }

  // ---------------------------------------------------------------------------
  // undo and redo
  // ---------------------------------------------------------------------------

  /** undo: the top move's cell gets its old value back and the move goes to
      the redo stack; nothing happens when there is nothing to undo. */
  function Undo(s: GameState): (s': GameState)
    requires Inv(s)
    ensures Inv(s')
    ensures s.undoStack == [] ==> s' == s
    ensures s.undoStack != [] ==>
      var m := s.undoStack[|s.undoStack| - 1];
      s'.grid.cells[m.row][m.col] == m.oldValue && s'.grid.states == s.grid.states &&
      (forall r, c :: InRange(r, c) && (r != m.row || c != m.col) ==> s'.grid.cells[r][c] == s.grid.cells[r][c]) &&
      s'.undoStack == s.undoStack[..|s.undoStack| - 1] && s'.redoStack == s.redoStack + [m]
  {
    if s.undoStack == [] then s
    else
      var m := s.undoStack[|s.undoStack| - 1];
      assert MoveOk(s.grid.states, m);
      GameState(Write(s.grid, m.row, m.col, m.oldValue), s.undoStack[..|s.undoStack| - 1], s.redoStack + [m])
  }

  /** redo: the top move of the redo stack is written again and goes back to
      the undo stack; nothing happens when there is nothing to redo. */
  function Redo(s: GameState): (s': GameState)
    requires Inv(s)
    ensures Inv(s')
    ensures s.redoStack == [] ==> s' == s
    ensures s.redoStack != [] ==>
      var m := s.redoStack[|s.redoStack| - 1];
      s'.grid.cells[m.row][m.col] == m.newValue && s'.grid.states == s.grid.states &&
      (forall r, c :: InRange(r, c) && (r != m.row || c != m.col) ==> s'.grid.cells[r][c] == s.grid.cells[r][c]) &&
      s'.redoStack == s.redoStack[..|s.redoStack| - 1] && s'.undoStack == s.undoStack + [m]
  {
    if s.redoStack == [] then s
    else
      var m := s.redoStack[|s.redoStack| - 1];
      assert MoveOk(s.grid.states, m);
      GameState(Write(s.grid, m.row, m.col, m.newValue), s.undoStack + [m], s.redoStack[..|s.redoStack| - 1])
  }

  // ---------------------------------------------------------------------------
  // reset, isSolved
  // ---------------------------------------------------------------------------

  /** reset: the board's reset followed by clearHistory. */
  function ResetGame(s: GameState): (s': GameState)
    requires WF(s.grid)
    ensures History(s') && s'.grid.states == s.grid.states
    ensures s'.undoStack == [] && s'.redoStack == []
    ensures forall r, c :: InRange(r, c) ==>
      s'.grid.cells[r][c] == if s.grid.states[r][c] == Fixed then s.grid.cells[r][c] else Empty
  {
    ClearHistory(GameState(Reset(s.grid), s.undoStack, s.redoStack))
  }

  /** clearHistory: both stacks emptied, the board untouched. */
  function ClearHistory(s: GameState): (s': GameState)
    requires WF(s.grid)
    ensures History(s') && s'.grid == s.grid
    ensures s'.undoStack == [] && s'.redoStack == []
  {
    GameState(s.grid, [], [])
  }

  /** isSolved: every cell filled and no unit repeating a digit. */
  method IsSolved(s: GameState) returns (solved: bool)
    requires WF(s.grid)
    ensures solved <==> Complete(s.grid.cells)
  {
    solved := IsComplete(s.grid);
  }

  // ---------------------------------------------------------------------------
  // The histories
  // ---------------------------------------------------------------------------

  /** Cell states never change during a game, so a move recorded on the old
      board is still well formed on the new one. */
  lemma MovesOkPrefix(states: seq<seq<CellState>>, moves: seq<Move>, n: int)
    requires Shaped(states) && MovesOk(states, moves) && 0 <= n <= |moves|
    ensures MovesOk(states, moves[..n])
  {
  }

  lemma MakeMoveHistory(s: GameState, row: int, col: int, value: int)
    requires History(s)
    ensures History(MakeMove(s, row, col, value).1)
  {
    var (ok, s') := MakeMove(s, row, col, value);
    if ok {
      var n := |s'.undoStack| - 1;
      assert s'.undoStack[..n] == s.undoStack;
      WriteBack(s.grid, row, col, value);
      assert Write(s'.grid, row, col, s.grid.cells[row][col]) == s.grid;
    }
  }

  lemma UndoHistory(s: GameState)
    requires History(s)
    ensures History(Undo(s))
  {
    if s.undoStack != [] {
      var m := s.undoStack[|s.undoStack| - 1];
      var s' := Undo(s);
      assert MoveOk(s.grid.states, m);
      var n := |s'.redoStack| - 1;
      assert s'.redoStack[..n] == s.redoStack;
      assert s'.redoStack[n] == m;
      WriteBack(s.grid, m.row, m.col, m.oldValue);
      assert Write(s'.grid, m.row, m.col, m.newValue) == s.grid;
    }
  }

  lemma RedoHistory(s: GameState)
    requires History(s)
    ensures History(Redo(s))
  {
    if s.redoStack != [] {
      var m := s.redoStack[|s.redoStack| - 1];
      var s' := Redo(s);
      assert MoveOk(s.grid.states, m);
      var n := |s'.undoStack| - 1;
      assert s'.undoStack[..n] == s.undoStack;
      assert s'.undoStack[n] == m;
      WriteBack(s.grid, m.row, m.col, m.newValue);
      assert Write(s'.grid, m.row, m.col, m.oldValue) == s.grid;
    }
  }

  /** Undoing a move just made restores the board and the undo stack; the
      move becomes the one thing to redo. */
  lemma UndoMakeMove(s: GameState, row: int, col: int, value: int)
    requires Inv(s) && MakeMove(s, row, col, value).0
    ensures Undo(MakeMove(s, row, col, value).1) ==
      GameState(s.grid, s.undoStack, [Move(row, col, s.grid.cells[row][col], value)])
  {
    var s' := MakeMove(s, row, col, value).1;
    assert s'.undoStack[..|s'.undoStack| - 1] == s.undoStack;
    WriteBack(s.grid, row, col, value);
  }

  /** Redo takes back an undo. */
  lemma RedoUndo(s: GameState)
    requires History(s) && s.undoStack != []
    ensures Redo(Undo(s)) == s
  {
    var m := s.undoStack[|s.undoStack| - 1];
    assert MoveOk(s.grid.states, m);
    var s1 := Undo(s);
    assert s1.redoStack[|s1.redoStack| - 1] == m;
    assert s1.redoStack[..|s1.redoStack| - 1] == s.redoStack;
    assert s.undoStack[..|s.undoStack| - 1] + [m] == s.undoStack;
    WriteBack(s.grid, m.row, m.col, m.oldValue);
  }

  /** Undo takes back a redo. */
  lemma UndoRedo(s: GameState)
    requires History(s) && s.redoStack != []
    ensures Undo(Redo(s)) == s
  {
    var m := s.redoStack[|s.redoStack| - 1];
    assert MoveOk(s.grid.states, m);
    var s1 := Redo(s);
    assert s1.undoStack[|s1.undoStack| - 1] == m;
    assert s1.undoStack[..|s1.undoStack| - 1] == s.undoStack;
    assert s.redoStack[..|s.redoStack| - 1] + [m] == s.redoStack;
    WriteBack(s.grid, m.row, m.col, m.newValue);
  }

  /** Moves, undos and redos only touch Editable cells: resetting afterwards
      gives the same board as resetting before. */
  lemma MoveKeepsReset(s: GameState, row: int, col: int, value: int)
    requires Inv(s)
    ensures Reset(MakeMove(s, row, col, value).1.grid) == Reset(s.grid)
  {
    if MakeMove(s, row, col, value).0 {
      ResetDiscardsSet(s.grid, row, col, value);
    }
  }

  lemma UndoKeepsReset(s: GameState)
    requires Inv(s)
    ensures Reset(Undo(s).grid) == Reset(s.grid)
  {
    if s.undoStack != [] {
      var m := s.undoStack[|s.undoStack| - 1];
      assert MoveOk(s.grid.states, m);
      ResetDiscardsSet(s.grid, m.row, m.col, m.oldValue);
    }
  }

  lemma RedoKeepsReset(s: GameState)
    requires Inv(s)
    ensures Reset(Redo(s).grid) == Reset(s.grid)
  {
    if s.redoStack != [] {
      var m := s.redoStack[|s.redoStack| - 1];
      assert MoveOk(s.grid.states, m);
      ResetDiscardsSet(s.grid, m.row, m.col, m.newValue);
    }
  }

  /** With the redo history kept across a new move, undo no longer takes back
      a redo: put 5 at the top-left corner of an empty board, undo it, put 7
      there, then redo and undo; the corner shows 0, not the 7 it showed. */
  lemma StaleRedo()
    ensures
      var s0 := NewGame(New());
      var s1 := MakeMoveKeepingRedo(s0, 0, 0, 5).1;
      var s2 := Undo(s1);
      var s3 := MakeMoveKeepingRedo(s2, 0, 0, 7).1;
      s3.grid.cells[0][0] == 7 && Undo(Redo(s3)).grid.cells[0][0] == Empty && !History(s3)
  {
    var s0 := NewGame(New());
    var s1 := MakeMoveKeepingRedo(s0, 0, 0, 5).1;
    var s2 := Undo(s1);
    var s3 := MakeMoveKeepingRedo(s2, 0, 0, 7).1;
    assert s3.redoStack == [Move(0, 0, 0, 5)];
    assert s3.undoStack == [Move(0, 0, 0, 7)];
  }
}

=== FILE: generator.dfy ===
/** The puzzle generator: it fills the three diagonal boxes with shuffled
    digits, completes the board with the brute-force solver, erases clues in
    shuffled order as long as the puzzle keeps exactly one solution and more
    clues remain than the difficulty asks for, and fixes the clues that are
    left.

    The random generator is not modelled: each shuffle it performs becomes a
    parameter holding the shuffled sequence. */
module Generator {
  import opened Board
  import opened Solver

  /** The difficulty levels; each names the number of clues it aims for. */
  datatype Difficulty = Easy | Medium | Hard | Expert

  function TargetClues(d: Difficulty): (n: int)
    ensures 0 < n < Size * Size
  {
    match d
    case Easy => 35
    case Medium => 30
    case Hard => 25
    case Expert => 20
  }

  /** The result of shuffling the digits 1..9. */
  predicate IsDigitPermutation(p: seq<int>) {
    |p| == Size &&
    (forall i :: 0 <= i < Size ==> 1 <= p[i] <= Size) &&
    (forall i, j :: 0 <= i < j < Size ==> p[i] != p[j])
  }

  // ---------------------------------------------------------------------------
  // fillDiagonal
  // ---------------------------------------------------------------------------

  /** Cell (r, c) lies in one of the boxes 0, 4 and 8. */
  predicate OnDiagonal(r: int, c: int) {
    r / BoxSize == c / BoxSize
  }

  /** The digit the diagonal fill puts at (r, c): box k of the diagonal takes
      its digits from the k-th shuffle, row by row. */
  function DiagonalDigit(perms: seq<seq<int>>, r: int, c: int): int
    requires |perms| == BoxSize && forall k :: 0 <= k < BoxSize ==> IsDigitPermutation(perms[k])
    requires InRange(r, c) && OnDiagonal(r, c)
  {
    var k, i := r / BoxSize, (r % BoxSize) * BoxSize + c % BoxSize;
    assert 0 <= k < BoxSize && IsDigitPermutation(perms[k]);
    assert 0 <= i < Size by {
      assert 0 <= r % BoxSize < BoxSize && 0 <= c % BoxSize < BoxSize;
    }
    perms[k][i]
  }

  /** The cells of the box starting at (box, box) before position (i, j) of
      the box, in row-major order, hold nums (where Editable); every other
      cell is as in g0. */
  ghost predicate BoxFilledUpTo(g0: Grid, g: Grid, box: int, nums: seq<int>, i: int, j: int)
    requires WF(g0) && WF(g) && |nums| == Size
  {
    forall r, c :: InRange(r, c) ==>
      g.cells[r][c] ==
        if box <= r < box + BoxSize && box <= c < box + BoxSize && Before(r - box, c - box, i, j) &&
           g0.states[r][c] == Editable
        then nums[(r - box) * BoxSize + (c - box)]
        else g0.cells[r][c]
  }

  /** The inner two loops of fillDiagonal for one box: index runs over the
      shuffled digits while (i, j) runs over the box. */
  method FillBox(g: Grid, box: int, nums: seq<int>) returns (g': Grid)
    requires WF(g) && 0 <= box && box + BoxSize <= Size && IsDigitPermutation(nums)
    ensures WF(g') && g'.states == g.states
    ensures BoxFilledUpTo(g, g', box, nums, BoxSize, 0)
  {
    g' := g;
    var index := 0;
    for i := 0 to BoxSize
      invariant WF(g') && g'.states == g.states
      invariant index == i * BoxSize
      invariant BoxFilledUpTo(g, g', box, nums, i, 0)
    {
      for j := 0 to BoxSize
        invariant WF(g') && g'.states == g.states
        invariant index == i * BoxSize + j
        invariant BoxFilledUpTo(g, g', box, nums, i, j)
      {
        g' := Write(g', box + i, box + j, nums[index]);
        index := index + 1;
      }
    }
  }

  /** The diagonal cells up to box `box` hold their digits (where Editable);
      every other cell is as in g0. */
  ghost predicate DiagonalUpTo(g0: Grid, g: Grid, perms: seq<seq<int>>, box: int)
    requires WF(g0) && WF(g)
    requires |perms| == BoxSize && forall k :: 0 <= k < BoxSize ==> IsDigitPermutation(perms[k])
  {
    forall r, c :: InRange(r, c) ==>
      g.cells[r][c] ==
        if OnDiagonal(r, c) && r < box && g0.states[r][c] == Editable then DiagonalDigit(perms, r, c)
        else g0.cells[r][c]
  }

  lemma DiagonalStep(g0: Grid, g: Grid, g': Grid, perms: seq<seq<int>>, box: int)
    requires WF(g0) && WF(g) && WF(g') && g.states == g0.states
    requires |perms| == BoxSize && forall k :: 0 <= k < BoxSize ==> IsDigitPermutation(perms[k])
    requires 0 <= box < Size && box % BoxSize == 0
    requires DiagonalUpTo(g0, g, perms, box)
    requires BoxFilledUpTo(g, g', box, perms[box / BoxSize], BoxSize, 0)
    ensures DiagonalUpTo(g0, g', perms, box + BoxSize)
  {
    forall r, c | InRange(r, c)
      ensures g'.cells[r][c] ==
        if OnDiagonal(r, c) && r < box + BoxSize && g0.states[r][c] == Editable then DiagonalDigit(perms, r, c)
        else g0.cells[r][c]
    {
      if box <= r < box + BoxSize && box <= c < box + BoxSize {
        assert r / BoxSize == box / BoxSize && c / BoxSize == box / BoxSize;
        assert r % BoxSize == r - box && c % BoxSize == c - box;
        assert Before(r - box, c - box, BoxSize, 0);
      } else if box <= r < box + BoxSize {
        assert !OnDiagonal(r, c);
      }
    }
  }

  /** fillDiagonal: box k of the diagonal (k = 0, 1, 2) is filled from the
      k-th shuffle of 1..9. */
  method FillDiagonal(g: Grid, perms: seq<seq<int>>) returns (g': Grid)
    requires WF(g)
    requires |perms| == BoxSize && forall k :: 0 <= k < BoxSize ==> IsDigitPermutation(perms[k])
    ensures WF(g') && g'.states == g.states
    ensures DiagonalUpTo(g, g', perms, Size)
  {
    g' := g;
    var box := 0;
    while box < Size
      invariant 0 <= box <= Size && box % BoxSize == 0
      invariant WF(g') && g'.states == g.states
      invariant DiagonalUpTo(g, g', perms, box)
    {
      var g'' := FillBox(g', box, perms[box / BoxSize]);
      DiagonalStep(g, g', g'', perms, box);
      g' := g'';
      box := box + BoxSize;
    }
  }

  /** Filling the diagonal of a new board gives a valid board whose filled
      cells are exactly the diagonal boxes: the three boxes share no row and
      no column, and each holds every digit once. */
  lemma DiagonalValid(g: Grid, perms: seq<seq<int>>)
    requires |perms| == BoxSize && forall k :: 0 <= k < BoxSize ==> IsDigitPermutation(perms[k])
    requires WF(g) && DiagonalUpTo(New(), g, perms, Size)
    ensures Valid(g.cells)
    ensures forall r, c :: InRange(r, c) ==> (g.cells[r][c] != Empty <==> OnDiagonal(r, c))
  {
    forall r1, c1, r2, c2 |
      InRange(r1, c1) && InRange(r2, c2) && (r1 != r2 || c1 != c2) &&
      SameUnit(r1, c1, r2, c2) && g.cells[r1][c1] != Empty
      ensures g.cells[r1][c1] != g.cells[r2][c2]
    {
      if OnDiagonal(r2, c2) {
        assert OnDiagonal(r1, c1);
        SameBox(r1, c1, r2, c2);
        assert r1 / BoxSize == r2 / BoxSize;
        var k := r1 / BoxSize;
        var i1, i2 := (r1 % BoxSize) * BoxSize + c1 % BoxSize, (r2 % BoxSize) * BoxSize + c2 % BoxSize;
        assert i1 != i2;
        if i1 < i2 {
          assert perms[k][i1] != perms[k][i2];
        } else {
          assert perms[k][i2] != perms[k][i1];
        }
      }
    }
  }

  // ---------------------------------------------------------------------------
  // countFilledCells
  // ---------------------------------------------------------------------------

  /** The filled cells before (row, col) in row-major order. */
  ghost function CluesBefore(v: Cells, row: int, col: int): set<(int, int)>
    requires Shaped(v)
  {
    set r, c | 0 <= r < Size && 0 <= c < Size && Before(r, c, row, col) && v[r][c] != Empty :: (r, c)
  }

  /** The filled cells of v: its clues. */
  ghost function Clues(v: Cells): set<(int, int)>
    requires Shaped(v)
  {
    CluesBefore(v, Size, 0)
  }

  /** The number of clues of v. */
  ghost function CountFilled(v: Cells): nat
    requires Shaped(v)
  {
    |Clues(v)|
  }

  lemma ClueIff(v: Cells, row: int, col: int, r: int, c: int)
    requires Shaped(v)
    ensures (r, c) in CluesBefore(v, row, col) <==> InRange(r, c) && Before(r, c, row, col) && v[r][c] != Empty
  {
  }

  /** Passing cell (i, j) adds it to the clues seen so far exactly when it is filled. */
  lemma CluesStep(v: Cells, i: int, j: int)
    requires Shaped(v) && InRange(i, j)
    ensures |CluesBefore(v, i, j + 1)| == |CluesBefore(v, i, j)| + if v[i][j] != Empty then 1 else 0
  {
    var a, b := CluesBefore(v, i, j), CluesBefore(v, i, j + 1);
    ClueIff(v, i, j, i, j);
    if v[i][j] != Empty {
      forall p | p in b ensures p in a + {(i, j)} {
        ClueIff(v, i, j + 1, p.0, p.1);
        ClueIff(v, i, j, p.0, p.1);
      }
      forall p | p in a + {(i, j)} ensures p in b {
        ClueIff(v, i, j + 1, p.0, p.1);
        ClueIff(v, i, j, p.0, p.1);
      }
      assert b == a + {(i, j)};
    } else {
      forall p | p in b ensures p in a {
        ClueIff(v, i, j + 1, p.0, p.1);
        ClueIff(v, i, j, p.0, p.1);
      }
      forall p | p in a ensures p in b {
        ClueIff(v, i, j + 1, p.0, p.1);
        ClueIff(v, i, j, p.0, p.1);
      }
      assert b == a;
    }
  }

  /** The end of one row is the start of the next. */
  lemma CluesNextRow(v: Cells, i: int)
    requires Shaped(v) && 0 <= i < Size
    ensures CluesBefore(v, i, Size) == CluesBefore(v, i + 1, 0)
  {
    forall p | p in CluesBefore(v, i, Size) ensures p in CluesBefore(v, i + 1, 0) {
      ClueIff(v, i, Size, p.0, p.1);
      ClueIff(v, i + 1, 0, p.0, p.1);
    }
    forall p | p in CluesBefore(v, i + 1, 0) ensures p in CluesBefore(v, i, Size) {
      ClueIff(v, i, Size, p.0, p.1);
      ClueIff(v, i + 1, 0, p.0, p.1);
    }
  }

  /** countFilledCells: the number of non-empty cells. */
  method CountFilledCells(g: Grid) returns (count: int)
    requires WF(g)
    ensures count == CountFilled(g.cells)
  {
    count := 0;
    for i := 0 to Size
      invariant count == |CluesBefore(g.cells, i, 0)|
    {
      for j := 0 to Size
        invariant count == |CluesBefore(g.cells, i, j)|
      {
        CluesStep(g.cells, i, j);
        if Get(g, i, j).value != Empty {
          count := count + 1;
        }
      }
      CluesNextRow(g.cells, i);
    }
  }

  /** A board with every cell filled has 81 clues. */
  lemma FilledCount(v: Cells)
    requires Shaped(v) && Filled(v)
    ensures CountFilled(v) == Size * Size
  {
    for i := 0 to Size
      invariant |CluesBefore(v, i, 0)| == i * Size
    {
      for j := 0 to Size
        invariant |CluesBefore(v, i, j)| == i * Size + j
      {
        CluesStep(v, i, j);
      }
      CluesNextRow(v, i);
    }
  }

  // ---------------------------------------------------------------------------
  // Erasing clues
  // ---------------------------------------------------------------------------

  /** a is b with some of its clues erased. */
  ghost predicate SubBoard(a: Cells, b: Cells)
    requires Shaped(a) && Shaped(b)
  {
    forall r, c :: InRange(r, c) ==> a[r][c] == Empty || a[r][c] == b[r][c]
  }

  /** v with cell (r, c) emptied. */
  function Erase(v: Cells, r: int, c: int): (w: Cells)
    requires Shaped(v) && InRange(r, c)
    ensures Shaped(w) && w[r][c] == Empty
    ensures forall r', c' :: InRange(r', c') && (r' != r || c' != c) ==> w[r'][c'] == v[r'][c']
  {
    v[r := v[r][c := Empty]]
  }

  /** Clue (r, c) of v is needed: without it v has two or more solutions. */
  ghost predicate Essential(v: Cells, r: int, c: int)
    requires Shaped(v) && InRange(r, c)
  {
    Class(Erase(v, r, c)) == 2
  }

  /** Every solution of a board is a solution of the board with fewer clues. */
  lemma CompletionWeaken(a: Cells, b: Cells, h: Cells)
    requires Shaped(a) && Shaped(b) && SubBoard(a, b) && IsCompletion(b, h)
    ensures IsCompletion(a, h)
  {
  }

  /** Erasing clues never loses solutions. */
  lemma ClassMono(a: Cells, b: Cells)
    requires Shaped(a) && Shaped(b) && SubBoard(a, b)
    ensures Class(a) >= Class(b)
  {
    ClassMeaning(a);
    ClassMeaning(b);
    if Class(b) == 2 {
      var h1, h2 :| IsCompletion(b, h1) && IsCompletion(b, h2) && h1 != h2;
      CompletionWeaken(a, b, h1);
      CompletionWeaken(a, b, h2);
    } else if Class(b) == 1 {
      var h :| IsCompletion(b, h);
      CompletionWeaken(a, b, h);
    }
  }

  /** Erasing clues keeps a valid board valid. */
  lemma SubBoardValid(a: Cells, b: Cells)
    requires Shaped(a) && Shaped(b) && SubBoard(a, b) && Valid(b)
    ensures Valid(a)
  {
  }

  /** Writing 0 into an Editable cell erases it. */
  lemma WriteEmpty(g: Grid, r: int, c: int)
    requires WF(g) && InRange(r, c) && g.states[r][c] == Editable
    ensures Write(g, r, c, Empty).cells == Erase(g.cells, r, c)
  {
    CellsExt(Write(g, r, c, Empty).cells, Erase(g.cells, r, c));
  }

  // ---------------------------------------------------------------------------
  // removeNumbers
  // ---------------------------------------------------------------------------

  /** No position occurs twice in order. */
  predicate NoRepeats(order: seq<(int, int)>) {
    forall i, j :: 0 <= i < j < |order| ==> order[i] != order[j]
  }

  /** order visits every cell of the board exactly once: a shuffle of all 81 positions. */
  ghost predicate ListsAllCells(order: seq<(int, int)>) {
    (forall i {:trigger order[i]} :: 0 <= i < |order| ==> InRange(order[i].0, order[i].1)) &&
    (forall r, c :: InRange(r, c) ==> (r, c) in order) &&
    NoRepeats(order)
  }

  /** order visits every clue of v exactly once and nothing else: a shuffle
      of the positions removeNumbers collects. */
  ghost predicate ListsClues(order: seq<(int, int)>, v: Cells)
    requires Shaped(v)
  {
    (forall i {:trigger order[i]} :: 0 <= i < |order| ==> InRange(order[i].0, order[i].1) && v[order[i].0][order[i].1] != Empty) &&
    (forall r, c :: InRange(r, c) && v[r][c] != Empty ==> (r, c) in order) &&
    NoRepeats(order)
  }

  /** The positions of the clues of v, in the order cellOrder visits them. */
  function FilledIn(cellOrder: seq<(int, int)>, v: Cells): (o: seq<(int, int)>)
    requires Shaped(v) && forall i :: 0 <= i < |cellOrder| ==> InRange(cellOrder[i].0, cellOrder[i].1)
    ensures forall p :: p in o <==> p in cellOrder && InRange(p.0, p.1) && v[p.0][p.1] != Empty
    ensures NoRepeats(cellOrder) ==> NoRepeats(o)
  {
    if cellOrder == [] then []
    else
      var p := cellOrder[0];
      assert InRange(p.0, p.1);
      (if v[p.0][p.1] != Empty then [p] else []) + FilledIn(cellOrder[1..], v)
  }

  /** Restricting a shuffle of all cells to the clues gives a shuffle of the clues. */
  lemma FilledInLists(cellOrder: seq<(int, int)>, v: Cells)
    requires Shaped(v) && ListsAllCells(cellOrder)
    ensures ListsClues(FilledIn(cellOrder, v), v)
  {
    var o := FilledIn(cellOrder, v);
    forall i | 0 <= i < |o| ensures InRange(o[i].0, o[i].1) && v[o[i].0][o[i].1] != Empty {
      assert o[i] in o;
    }
  }

  /** What holds after the first k positions of order have been tried:
      clues counts the clues of cur; only clues of g were erased, and only
      visited ones; cur is g or has a single solution; and, when g is valid
      with a single solution, every visited clue still standing is
      essential. */
  ghost predicate RemoveInv(g: Grid, order: seq<(int, int)>, target: int, cur: Grid, k: int, clues: int)
    requires WF(g) && ListsClues(order, g.cells)
  {
    WF(cur) && cur.states == g.states && 0 <= k <= |order| &&
    clues == CountFilled(cur.cells) &&
    clues >= Min(CountFilled(g.cells), target) &&
    (CountFilled(g.cells) <= target ==> cur == g) &&
    SubBoard(cur.cells, g.cells) &&
    (forall j :: k <= j < |order| ==> cur.cells[order[j].0][order[j].1] == g.cells[order[j].0][order[j].1]) &&
    (cur == g || HasUniqueSolution(cur)) &&
    (Valid(g.cells) && Class(g.cells) == 1 ==> VisitedEssential(order, cur, k))
  }

  /** Every clue of cur among the first k positions of order is essential. */
  ghost predicate VisitedEssential(order: seq<(int, int)>, cur: Grid, k: int)
    requires WF(cur) && 0 <= k <= |order| && forall i {:trigger order[i]} :: 0 <= i < |order| ==> InRange(order[i].0, order[i].1)
  {
    forall j :: 0 <= j < k && InRange(order[j].0, order[j].1) && cur.cells[order[j].0][order[j].1] != Empty ==>
      Essential(cur.cells, order[j].0, order[j].1)
  }

  /** Every board removeNumbers passes through is valid, has its empty cells
      Editable, and has the single solution of g. */
  lemma RemoveInvClass(g: Grid, order: seq<(int, int)>, target: int, cur: Grid, k: int, clues: int)
    requires WF(g) && ListsClues(order, g.cells) && RemoveInv(g, order, target, cur, k, clues)
    requires Valid(g.cells) && AllEditable(g)
    ensures Valid(cur.cells) && EmptyEditable(cur)
    ensures Class(g.cells) == 1 ==> Class(cur.cells) == 1
  {
    SubBoardValid(cur.cells, g.cells);
    if Class(g.cells) == 1 && cur != g {
      UniqueIffClass(cur);
    }
  }

  /** Every cell is Editable, as on a board the generator has not fixed yet. */
  ghost predicate AllEditable(g: Grid)
    requires WF(g)
  {
    forall r, c :: InRange(r, c) ==> g.states[r][c] == Editable
  }

  /** Erasing a clue from a board with fewer clues erases from a sub-board. */
  lemma EraseSub(a: Cells, b: Cells, r: int, c: int)
    requires Shaped(a) && Shaped(b) && SubBoard(a, b) && InRange(r, c)
    ensures SubBoard(Erase(a, r, c), Erase(b, r, c))
    ensures SubBoard(Erase(a, r, c), a)
  {
  }

  /** The number of clues drops by one when a clue is erased. */
  lemma EraseCount(v: Cells, r: int, c: int)
    requires Shaped(v) && InRange(r, c) && v[r][c] != Empty
    ensures CountFilled(Erase(v, r, c)) == CountFilled(v) - 1
  {
    var w := Erase(v, r, c);
    ClueIff(v, Size, 0, r, c);
    forall p | p in Clues(w) ensures p in Clues(v) - {(r, c)} {
      ClueIff(w, Size, 0, p.0, p.1);
      ClueIff(v, Size, 0, p.0, p.1);
    }
    forall p | p in Clues(v) - {(r, c)} ensures p in Clues(w) {
      ClueIff(w, Size, 0, p.0, p.1);
      ClueIff(v, Size, 0, p.0, p.1);
    }
    assert Clues(w) == Clues(v) - {(r, c)};
  }

  lemma RemoveStart(g: Grid, order: seq<(int, int)>, target: int)
    requires WF(g) && ListsClues(order, g.cells)
    ensures RemoveInv(g, order, target, g, 0, CountFilled(g.cells))
  {
  }

  /** A clue that is essential stays essential when other clues are erased. */
  lemma EssentialStays(a: Cells, b: Cells, r: int, c: int)
    requires Shaped(a) && Shaped(b) && SubBoard(a, b) && InRange(r, c) && Essential(b, r, c)
    ensures Essential(a, r, c)
  {
    EraseSub(a, b, r, c);
    ClassMono(Erase(a, r, c), Erase(b, r, c));
  }

  /** The erasure is kept: the board without clue k has a single solution. */
  lemma RemoveKeepErased(g: Grid, order: seq<(int, int)>, target: int, cur: Grid, k: int, clues: int)
    requires WF(g) && ListsClues(order, g.cells) && AllEditable(g)
    requires RemoveInv(g, order, target, cur, k, clues) && k < |order| && clues > target
    requires HasUniqueSolution(Write(cur, order[k].0, order[k].1, Empty))
    ensures RemoveInv(g, order, target, Write(cur, order[k].0, order[k].1, Empty), k + 1, clues - 1)
  {
    var (row, col) := order[k];
    var next := Write(cur, row, col, Empty);
    assert cur.cells[row][col] == g.cells[row][col] != Empty;
    WriteEmpty(cur, row, col);
    EraseCount(cur.cells, row, col);
    assert SubBoard(next.cells, g.cells) by {
      forall r, c | InRange(r, c) ensures next.cells[r][c] == Empty || next.cells[r][c] == g.cells[r][c] {
        assert r != row || c != col ==> next.cells[r][c] == cur.cells[r][c];
      }
    }
    assert next != g by {
      assert next.cells[row][col] != g.cells[row][col];
    }
    assert forall j :: k + 1 <= j < |order| ==>
        next.cells[order[j].0][order[j].1] == g.cells[order[j].0][order[j].1] by {
      forall j | k + 1 <= j < |order|
        ensures next.cells[order[j].0][order[j].1] == g.cells[order[j].0][order[j].1]
      {
        assert order[j] != order[k];
      }
    }
    if Valid(g.cells) && Class(g.cells) == 1 {
      VisitedAfterErase(order, cur, k);
    }
  }

  lemma VisitedAfterErase(order: seq<(int, int)>, cur: Grid, k: int)
    requires WF(cur) && 0 <= k < |order| && forall i {:trigger order[i]} :: 0 <= i < |order| ==> InRange(order[i].0, order[i].1)
    requires NoRepeats(order) && InRange(order[k].0, order[k].1) && cur.states[order[k].0][order[k].1] == Editable
    requires VisitedEssential(order, cur, k)
    ensures VisitedEssential(order, Write(cur, order[k].0, order[k].1, Empty), k + 1)
  {
    var next := Write(cur, order[k].0, order[k].1, Empty);
    assert SubBoard(next.cells, cur.cells);
    forall j | 0 <= j < k + 1 && next.cells[order[j].0][order[j].1] != Empty
      ensures Essential(next.cells, order[j].0, order[j].1)
    {
      assert order[j] != order[k];
      EssentialStays(next.cells, cur.cells, order[j].0, order[j].1);
    }
  }

  /** The erasure is undone: the board without clue k has no single
      solution, so, if g has one, that clue is essential. */
  lemma RemoveKeepRestored(g: Grid, order: seq<(int, int)>, target: int, cur: Grid, k: int, clues: int)
    requires WF(g) && ListsClues(order, g.cells) && AllEditable(g)
    requires RemoveInv(g, order, target, cur, k, clues) && k < |order| && clues > target
    requires !HasUniqueSolution(Write(cur, order[k].0, order[k].1, Empty))
    ensures RemoveInv(g, order, target, cur, k + 1, clues)
  {
    var (row, col) := order[k];
    if Valid(g.cells) && Class(g.cells) == 1 {
      var w := Write(cur, row, col, Empty);
      RemoveInvClass(g, order, target, cur, k, clues);
      WriteEmpty(cur, row, col);
      EraseSub(cur.cells, g.cells, row, col);
      SubBoardValid(w.cells, cur.cells);
      UniqueIffClass(w);
      ClassMono(w.cells, cur.cells);
      assert Essential(cur.cells, row, col);
    }
  }

  /** removeNumbers: tries the clues in shuffled order, erasing each one as
      long as more clues remain than the difficulty asks for and the board
      without it still has exactly one solution. */
  method RemoveNumbers(g: Grid, d: Difficulty, cellOrder: seq<(int, int)>) returns (g': Grid)
    requires WF(g) && AllEditable(g) && ListsAllCells(cellOrder)
    ensures WF(g') && g'.states == g.states && SubBoard(g'.cells, g.cells)
    ensures CountFilled(g'.cells) >= Min(CountFilled(g.cells), TargetClues(d))
    ensures CountFilled(g.cells) <= TargetClues(d) ==> g' == g
    ensures g' == g || HasUniqueSolution(g')
    ensures Valid(g.cells) ==> Valid(g'.cells)
    ensures Valid(g.cells) && Class(g.cells) == 1 ==>
      Class(g'.cells) == 1 && forall h :: IsCompletion(g.cells, h) ==> IsCompletion(g'.cells, h)
    ensures Valid(g.cells) && Class(g.cells) == 1 && CountFilled(g'.cells) > TargetClues(d) ==>
      forall r, c :: InRange(r, c) && g'.cells[r][c] != Empty ==> Essential(g'.cells, r, c)
  {
    var target := TargetClues(d);
    var currentClues := CountFilledCells(g);
    var positions := FilledIn(cellOrder, g.cells);
    FilledInLists(cellOrder, g.cells);
    RemoveStart(g, positions, target);
    g' := g;
    var k := 0;
    while k < |positions|
      invariant RemoveInv(g, positions, target, g', k, currentClues)
    {
      if currentClues <= target {
        break;
      }
      g', currentClues := TryRemove(g, positions, target, g', k, currentClues);
      k := k + 1;
    }
    RemoveFinish(g, positions, target, g', k, currentClues);
  }

  /** One turn of the loop of removeNumbers: clue k is erased, and written
      back unless the board without it has exactly one solution. */
  method TryRemove(g: Grid, order: seq<(int, int)>, target: int, cur: Grid, k: int, clues: int)
    returns (next: Grid, clues': int)
    requires WF(g) && ListsClues(order, g.cells) && AllEditable(g)
    requires RemoveInv(g, order, target, cur, k, clues) && k < |order| && clues > target
    ensures RemoveInv(g, order, target, next, k + 1, clues')
    ensures var erased := Write(cur, order[k].0, order[k].1, Empty);
      (next, clues') == if HasUniqueSolution(erased) then (erased, clues - 1) else (cur, clues)
  {
    var (row, col) := order[k];
    var savedValue := Get(cur, row, col).value;
    var erased := Write(cur, row, col, Empty);
    if HasUniqueSolution(erased) {
      RemoveKeepErased(g, order, target, cur, k, clues);
      next, clues' := erased, clues - 1;
    } else {
      RemoveKeepRestored(g, order, target, cur, k, clues);
      WriteBack(cur, row, col, Empty);
      next, clues' := Write(erased, row, col, savedValue), clues;
    }
  }

  /** What the invariant gives once the loop stops: at the target, or with
      every clue tried. */
  lemma RemoveFinish(g: Grid, order: seq<(int, int)>, target: int, cur: Grid, k: int, clues: int)
    requires WF(g) && ListsClues(order, g.cells) && AllEditable(g)
    requires RemoveInv(g, order, target, cur, k, clues) && (clues <= target || k == |order|)
    ensures Valid(g.cells) ==> Valid(cur.cells)
    ensures Valid(g.cells) && Class(g.cells) == 1 ==>
      Class(cur.cells) == 1 && forall h :: IsCompletion(g.cells, h) ==> IsCompletion(cur.cells, h)
    ensures Valid(g.cells) && Class(g.cells) == 1 && CountFilled(cur.cells) > target ==>
      forall r, c :: InRange(r, c) && cur.cells[r][c] != Empty ==> Essential(cur.cells, r, c)
  {
    if Valid(g.cells) {
      RemoveInvClass(g, order, target, cur, k, clues);
      if Class(g.cells) == 1 {
        forall h | IsCompletion(g.cells, h) ensures IsCompletion(cur.cells, h) {
          CompletionWeaken(cur.cells, g.cells, h);
        }
        if CountFilled(cur.cells) > target {
          forall r, c | InRange(r, c) && cur.cells[r][c] != Empty ensures Essential(cur.cells, r, c) {
            assert g.cells[r][c] != Empty;
            assert (r, c) in order;
            var j :| 0 <= j < |order| && order[j] == (r, c);
          }
        }
      }
    }
  }

  // ---------------------------------------------------------------------------
  // generate
  // ---------------------------------------------------------------------------

  /** The loop at the end of generate: every filled cell becomes Fixed; the
      others keep their state. */
  method FixClues(g: Grid) returns (g': Grid)
    requires WF(g)
    ensures WF(g') && g'.cells == g.cells
    ensures forall r, c :: InRange(r, c) ==>
      g'.states[r][c] == if g.cells[r][c] != Empty then Fixed else g.states[r][c]
  {
    g' := g;
    for i := 0 to Size
      invariant WF(g') && g'.cells == g.cells
      invariant forall r, c :: InRange(r, c) ==>
        g'.states[r][c] == if r < i && g.cells[r][c] != Empty then Fixed else g.states[r][c]
    {
      for j := 0 to Size
        invariant WF(g') && g'.cells == g.cells
        invariant forall r, c :: InRange(r, c) ==>
          g'.states[r][c] == if Before(r, c, i, j) && g.cells[r][c] != Empty then Fixed else g.states[r][c]
      {
        if Get(g', i, j).value != Empty {
          g' := SetCellState(g', i, j, Fixed);
        }
      }
    }
  }

  /** A board whose Fixed cells are exactly its clues: the game's reset
      takes it back to itself. */
  lemma FixedCluesReset(g: Grid)
    requires WF(g) && forall r, c :: InRange(r, c) ==> (g.states[r][c] == Fixed <==> g.cells[r][c] != Empty)
    ensures Reset(g) == g
  {
    GridExt(Reset(g), g);
  }

  /** generate: a valid puzzle whose clues are exactly its Fixed cells and
      which has at most one solution. The ghost results record the board
      after fillDiagonal and whether solve completed it (seeded), which is
      exactly when that board has a solution. When it does, the puzzle has
      exactly one solution, keeps at least as many clues as the difficulty
      asks for, and, if it keeps more, every clue is essential. */
  method Generate(d: Difficulty, perms: seq<seq<int>>, cellOrder: seq<(int, int)>)
    returns (g: Grid, ghost diagonal: Grid, ghost seeded: bool)
    requires |perms| == BoxSize && forall k :: 0 <= k < BoxSize ==> IsDigitPermutation(perms[k])
    requires ListsAllCells(cellOrder)
    ensures WF(diagonal) && diagonal.states == New().states && DiagonalUpTo(New(), diagonal, perms, Size)
    ensures seeded <==> Solve(diagonal).found
    ensures seeded <==> exists h :: IsCompletion(diagonal.cells, h)
    ensures WF(g) && Valid(g.cells)
    ensures forall r, c :: InRange(r, c) ==> (g.states[r][c] == Fixed <==> g.cells[r][c] != Empty)
    ensures Reset(g) == g
    ensures Class(g.cells) <= 1
    ensures seeded ==> HasUniqueSolution(g) && Class(g.cells) == 1
    ensures seeded ==> CountFilled(g.cells) >= TargetClues(d)
    ensures seeded && CountFilled(g.cells) > TargetClues(d) ==>
      forall r, c :: InRange(r, c) && g.cells[r][c] != Empty ==> Essential(g.cells, r, c)
  {
    var filled := FillDiagonal(New(), perms);
    diagonal := filled;
    DiagonalValid(filled, perms);
    var s := Solve(filled);
    SolveCorrect(filled);
    seeded := s.found;
    var solved := s.grid;
    assert Valid(solved.cells);
    assert AllEditable(solved);
    if seeded {
      assert Inv(solved, Size, 0);
      FullBoardClass(solved);
      FilledCount(solved.cells);
    }
    var puzzle := RemoveNumbers(solved, d, cellOrder);
    g := FixClues(puzzle);
    FixedCluesReset(g);
    assert EmptyEditable(g);
    UniqueIffClass(g);
    UniqueIffClass(puzzle);
    if !seeded {
      ClassMeaning(solved.cells);
    }
  }
}

=== FILE: solver.dfy ===
/** The brute-force backtracking solver: it fills the empty cells in
    row-major order, trying the digits 1..9 in increasing order, and the
    solution counter that stops looking once it has seen two solutions.

    The program fills the board in place and undoes each trial write; here a
    board is a value, each trial is a Write, and each undo a Write of 0. */
module Solver {
  import opened Board

  // ---------------------------------------------------------------------------
  // The placement test
  // ---------------------------------------------------------------------------

  /** Row of the i-th cell of the box that holds (row, col). */
  function ProbeRow(row: int, i: int): (r: int)
    requires 0 <= row < Size && 0 <= i < Size
    ensures 0 <= r < Size && r / BoxSize == row / BoxSize && r % BoxSize == i / BoxSize
  {
    (row / BoxSize) * BoxSize + i / BoxSize
  }

  /** Column of the i-th cell of the box that holds (row, col). */
  function ProbeCol(col: int, i: int): (c: int)
    requires 0 <= col < Size && 0 <= i < Size
    ensures 0 <= c < Size && c / BoxSize == col / BoxSize && c % BoxSize == i % BoxSize
  {
    (col / BoxSize) * BoxSize + i % BoxSize
  }

  lemma ProbeInBox(row: int, col: int, i: int)
    requires InRange(row, col) && 0 <= i < Size
    ensures InRange(ProbeRow(row, i), ProbeCol(col, i))
    ensures BoxIndex(ProbeRow(row, i), ProbeCol(col, i)) == BoxIndex(row, col)
  {
    SameBox(row, col, ProbeRow(row, i), ProbeCol(col, i));
  }

  /** Every cell of the box of (row, col) is the i-th probe for some i. */
  lemma ProbeCovers(row: int, col: int, r: int, c: int)
    requires InRange(row, col) && InRange(r, c) && BoxIndex(r, c) == BoxIndex(row, col)
    ensures var i := (r % BoxSize) * BoxSize + c % BoxSize;
      0 <= i < Size && ProbeRow(row, i) == r && ProbeCol(col, i) == c
  {
    SameBox(row, col, r, c);
  }

  /** canPlace: the nine probes look at the i-th cell of the row, of the
      column and of the box of (row, col). */
  predicate CanPlace(g: Grid, row: int, col: int, num: int)
    requires WF(g) && InRange(row, col)
  {
    forall i :: 0 <= i < Size ==>
      g.cells[row][i] != num && g.cells[i][col] != num &&
      g.cells[ProbeRow(row, i)][ProbeCol(col, i)] != num
  }

  /** The probes see exactly the cells that share a unit with (row, col). */
  lemma CanPlaceIff(g: Grid, row: int, col: int, num: int)
    requires WF(g) && InRange(row, col)
    ensures CanPlace(g, row, col, num) <==>
      forall r, c :: InRange(r, c) && SameUnit(row, col, r, c) ==> g.cells[r][c] != num
  {
    if CanPlace(g, row, col, num) {
      forall r, c | InRange(r, c) && SameUnit(row, col, r, c)
        ensures g.cells[r][c] != num
      {
        if r != row && c != col {
          ProbeCovers(row, col, r, c);
          var i := (r % BoxSize) * BoxSize + c % BoxSize;
          assert g.cells[ProbeRow(row, i)][ProbeCol(col, i)] != num;
        }
      }
    }
    if forall r, c :: InRange(r, c) && SameUnit(row, col, r, c) ==> g.cells[r][c] != num {
      forall i | 0 <= i < Size
        ensures g.cells[row][i] != num && g.cells[i][col] != num &&
                g.cells[ProbeRow(row, i)][ProbeCol(col, i)] != num
      {
        ProbeInBox(row, col, i);
        assert SameUnit(row, col, row, i) && SameUnit(row, col, i, col);
        assert SameUnit(row, col, ProbeRow(row, i), ProbeCol(col, i));
      }
    }
  }

  // ---------------------------------------------------------------------------
  // Completions
  // ---------------------------------------------------------------------------

  /** h keeps every filled cell of v. */
  ghost predicate Extends(v: Cells, h: Cells)
    requires Shaped(v) && Shaped(h)
  {
    forall r, c :: InRange(r, c) && v[r][c] != Empty ==> h[r][c] == v[r][c]
  }

  /** h is a solution of the puzzle v: a full, valid board that keeps the clues of v. */
  ghost predicate IsCompletion(v: Cells, h: Cells)
    requires Shaped(v)
  {
    Shaped(h) && ValuesInRange(h) && Complete(h) && Extends(v, h)
  }

  /** Every cell before (row, col) in row-major order is filled. */
  ghost predicate FilledBefore(v: Cells, row: int, col: int)
    requires Shaped(v)
  {
    forall r, c :: InRange(r, c) && Before(r, c, row, col) ==> v[r][c] != Empty
  }

  /** Every empty cell can be written: set is a no-op on a Fixed cell, so an
      empty Fixed cell could never be filled. */
  ghost predicate EmptyEditable(g: Grid)
    requires WF(g)
  {
    forall r, c :: InRange(r, c) && g.cells[r][c] == Empty ==> g.states[r][c] == Editable
  }

  /** What the search relies on when it reaches (row, col). */
  ghost predicate Inv(g: Grid, row: int, col: int)
  {
    WF(g) && 0 <= row <= Size && 0 <= col <= Size &&
    Valid(g.cells) && EmptyEditable(g) && FilledBefore(g.cells, row, col)
  }

  /** Stepping past the end of a row keeps what the search relies on. */
  lemma NextRow(g: Grid, row: int)
    requires Inv(g, row, Size) && row < Size
    ensures Inv(g, row + 1, 0)
  {
    forall r, c | InRange(r, c) && Before(r, c, row + 1, 0)
      ensures g.cells[r][c] != Empty
    {
      assert Before(r, c, row, Size);
    }
  }

  /** So does stepping past a filled cell. */
  lemma NextCell(g: Grid, row: int, col: int)
    requires Inv(g, row, col) && InRange(row, col) && g.cells[row][col] != Empty
    ensures Inv(g, row, col + 1)
  {
    forall r, c | InRange(r, c) && Before(r, c, row, col + 1)
      ensures g.cells[r][c] != Empty
    {
      if r != row || c != col {
        assert Before(r, c, row, col);
      }
    }
  }

  // ---------------------------------------------------------------------------
  // Trial writes
  // ---------------------------------------------------------------------------

  /** Writing a digit into an empty cell and then writing 0 back gives the
      board that was there before, whatever the cell's state. */
  lemma WriteRestore(g: Grid, row: int, col: int, num: int)
    requires WF(g) && InRange(row, col) && g.cells[row][col] == Empty && 1 <= num <= Size
    ensures Write(Write(g, row, col, num), row, col, Empty) == g
  {
    if g.states[row][col] == Editable {
      GridExt(Write(Write(g, row, col, num), row, col, Empty), g);
    }
  }

  /** The solutions of the board with num written at the empty Editable
      cell (row, col) are the solutions of the board that hold num there. */
  lemma PlaceSolutions(g: Grid, row: int, col: int, num: int, h: Cells)
    requires WF(g) && InRange(row, col) && g.cells[row][col] == Empty && g.states[row][col] == Editable
    requires 1 <= num <= Size
    ensures IsCompletion(Write(g, row, col, num).cells, h) <==> IsCompletion(g.cells, h) && h[row][col] == num
  {
  }

  /** A digit that canPlace accepts keeps the board valid and moves the
      search past (row, col). */
  lemma PlaceKeeps(g: Grid, row: int, col: int, num: int)
    requires Inv(g, row, col) && InRange(row, col) && g.cells[row][col] == Empty && 1 <= num <= Size
    requires CanPlace(g, row, col, num)
    ensures Inv(Write(g, row, col, num), row, col + 1)
  {
    var g' := Write(g, row, col, num);
    CanPlaceIff(g, row, col, num);
    assert Valid(g'.cells) by {
      forall r1, c1, r2, c2 |
        InRange(r1, c1) && InRange(r2, c2) && (r1 != r2 || c1 != c2) &&
        SameUnit(r1, c1, r2, c2) && g'.cells[r1][c1] != Empty
        ensures g'.cells[r1][c1] != g'.cells[r2][c2]
      {
        if r1 == row && c1 == col {
        } else if r2 == row && c2 == col {
          assert SameUnit(row, col, r1, c1);
        }
      }
    }
    assert FilledBefore(g'.cells, row, col + 1) by {
      forall r, c | InRange(r, c) && Before(r, c, row, col + 1)
        ensures g'.cells[r][c] != Empty
      {
        if r != row || c != col {
          assert Before(r, c, row, col);
        }
      }
    }
  }

  /** Every cell of a solution holds a digit 1..9. */
  lemma CompletionDigit(v: Cells, h: Cells, row: int, col: int)
    requires Shaped(v) && IsCompletion(v, h) && InRange(row, col)
    ensures 1 <= h[row][col] <= Size
  {
  }

  /** A digit that canPlace refuses appears in no solution at (row, col). */
  lemma NoPlaceNoCompletion(g: Grid, row: int, col: int, num: int)
    requires WF(g) && InRange(row, col) && g.cells[row][col] == Empty && 1 <= num <= Size
    requires !CanPlace(g, row, col, num)
    ensures forall h {:trigger IsCompletion(g.cells, h)} :: IsCompletion(g.cells, h) ==> h[row][col] != num
  {
    CanPlaceIff(g, row, col, num);
    var r, c :| InRange(r, c) && SameUnit(row, col, r, c) && g.cells[r][c] == num;
    forall h {:trigger IsCompletion(g.cells, h)} | IsCompletion(g.cells, h)
      ensures h[row][col] != num
    {
      assert h[r][c] == num && (r != row || c != col);
    }
  }

  // ---------------------------------------------------------------------------
  // solve
  // ---------------------------------------------------------------------------

  /** The outcome of the backtracker and the board it leaves behind. */
  datatype Search = Search(found: bool, grid: Grid)

  /** solveHelper(grid, row, col). */
  function SolveFrom(g: Grid, row: int, col: int): (r: Search)
    requires WF(g) && 0 <= row <= Size && 0 <= col <= Size
    ensures WF(r.grid) && r.grid.states == g.states
    ensures !r.found ==> r.grid == g
    decreases Size - row, Size - col, Size + 1
  {
    if row == Size then Search(true, g)
    else if col == Size then SolveFrom(g, row + 1, 0)
    else if g.cells[row][col] != Empty then SolveFrom(g, row, col + 1)
    else TryDigits(g, row, col, 1)
  }

  /** The loop of solveHelper over the digits num..9 at the empty cell (row, col). */
  function TryDigits(g: Grid, row: int, col: int, num: int): (r: Search)
    requires WF(g) && InRange(row, col) && g.cells[row][col] == Empty && 1 <= num <= Size + 1
    ensures WF(r.grid) && r.grid.states == g.states
    ensures !r.found ==> r.grid == g
    decreases Size - row, Size - col, Size + 1 - num
  {
    if num > Size then Search(false, g)
    else if CanPlace(g, row, col, num) then
      var r := SolveFrom(Write(g, row, col, num), row, col + 1);
      if r.found then r
      else
        WriteRestore(g, row, col, num);
        TryDigits(Write(r.grid, row, col, Empty), row, col, num + 1)
    else TryDigits(g, row, col, num + 1)
  }

  /** solve(grid): the backtracker from the first cell. */
  function Solve(g: Grid): (r: Search)
    requires WF(g)
    ensures WF(r.grid) && r.grid.states == g.states
    ensures !r.found ==> r.grid == g
  {
    SolveFrom(g, 0, 0)
  }

  /** From (row, col) on, the search finds a solution exactly when there is
      one, and the one it finds keeps every clue. */
  lemma {:induction false} SolveFromCorrect(g: Grid, row: int, col: int)
    requires Inv(g, row, col)
    ensures SolveFrom(g, row, col).found ==> IsCompletion(g.cells, SolveFrom(g, row, col).grid.cells)
    ensures !SolveFrom(g, row, col).found ==> forall h :: !IsCompletion(g.cells, h)
    decreases Size - row, Size - col, Size + 1, 0
  {
    if row == Size {
      assert FilledBefore(g.cells, row, col);
    } else if col == Size {
      NextRow(g, row);
      SolveFromCorrect(g, row + 1, 0);
    } else if g.cells[row][col] != Empty {
      NextCell(g, row, col);
      SolveFromCorrect(g, row, col + 1);
    } else {
      TryDigitsCorrect(g, row, col, 1);
    }
  }

  /** Trying the digits num..9 at (row, col) finds a solution exactly when
      some solution holds one of them there. */
  lemma {:induction false} TryDigitsCorrect(g: Grid, row: int, col: int, num: int)
    requires Inv(g, row, col) && InRange(row, col) && g.cells[row][col] == Empty && 1 <= num <= Size + 1
    ensures TryDigits(g, row, col, num).found ==>
      IsCompletion(g.cells, TryDigits(g, row, col, num).grid.cells) &&
      TryDigits(g, row, col, num).grid.cells[row][col] >= num
    ensures !TryDigits(g, row, col, num).found ==>
      forall h {:trigger IsCompletion(g.cells, h)} :: IsCompletion(g.cells, h) ==> h[row][col] < num
    decreases Size - row, Size - col, Size + 1 - num, 2
  {
    if num > Size {
      forall h {:trigger IsCompletion(g.cells, h)} | IsCompletion(g.cells, h)
        ensures h[row][col] < num
      {
        CompletionDigit(g.cells, h, row, col);
      }
    } else if CanPlace(g, row, col, num) {
      TryPlacedCorrect(g, row, col, num);
    } else {
      assert TryDigits(g, row, col, num) == TryDigits(g, row, col, num + 1);
      NoPlaceNoCompletion(g, row, col, num);
      TryDigitsCorrect(g, row, col, num + 1);
    }
  }

  /** One turn of the loop of solveHelper when canPlace accepts num: the
      search below either succeeds, or undoes its trial write and the loop
      goes on with the next digit from the board it started with. */
  lemma TryPlacedStep(g: Grid, row: int, col: int, num: int)
    requires WF(g) && InRange(row, col) && g.cells[row][col] == Empty && 1 <= num <= Size
    requires CanPlace(g, row, col, num)
    ensures var r := SolveFrom(Write(g, row, col, num), row, col + 1);
      TryDigits(g, row, col, num) == if r.found then r else TryDigits(g, row, col, num + 1)
  {
    WriteRestore(g, row, col, num);
  }

  /** The same when canPlace accepts num: either the search below finds a
      solution with num at (row, col), or there is none and the loop moves on. */
  lemma {:induction false} TryPlacedCorrect(g: Grid, row: int, col: int, num: int)
    requires Inv(g, row, col) && InRange(row, col) && g.cells[row][col] == Empty && 1 <= num <= Size
    requires CanPlace(g, row, col, num)
    ensures TryDigits(g, row, col, num).found ==>
      IsCompletion(g.cells, TryDigits(g, row, col, num).grid.cells) &&
      TryDigits(g, row, col, num).grid.cells[row][col] >= num
    ensures !TryDigits(g, row, col, num).found ==>
      forall h {:trigger IsCompletion(g.cells, h)} :: IsCompletion(g.cells, h) ==> h[row][col] < num
    decreases Size - row, Size - col, Size + 1 - num, 1
  {
    BelowCorrect(g, row, col, num);
    if !SolveFrom(Write(g, row, col, num), row, col + 1).found {
      TryDigitsCorrect(g, row, col, num + 1);
      if !TryDigits(g, row, col, num + 1).found {
        DigitBoundDown(g.cells, row, col, num);
      }
    }
  }

  /** No solution holds a digit of num or more at (row, col), when none holds
      num + 1 or more and none holds num. */
  lemma DigitBoundDown(v: Cells, row: int, col: int, num: int)
    requires Shaped(v) && InRange(row, col)
    requires forall h {:trigger IsCompletion(v, h)} :: IsCompletion(v, h) ==> h[row][col] < num + 1
    requires forall h {:trigger IsCompletion(v, h)} :: IsCompletion(v, h) ==> h[row][col] != num
    ensures forall h {:trigger IsCompletion(v, h)} :: IsCompletion(v, h) ==> h[row][col] < num
  {
  }

  /** The search below an accepted digit either finds a solution holding that
      digit, or there is none and the loop goes on with the next digit. */
  lemma {:induction false} BelowCorrect(g: Grid, row: int, col: int, num: int)
    requires Inv(g, row, col) && InRange(row, col) && g.cells[row][col] == Empty && 1 <= num <= Size
    requires CanPlace(g, row, col, num)
    ensures SolveFrom(Write(g, row, col, num), row, col + 1).found ==>
      var t := TryDigits(g, row, col, num);
      t.found && IsCompletion(g.cells, t.grid.cells) && t.grid.cells[row][col] == num
    ensures !SolveFrom(Write(g, row, col, num), row, col + 1).found ==>
      TryDigits(g, row, col, num) == TryDigits(g, row, col, num + 1) &&
      forall h {:trigger IsCompletion(g.cells, h)} :: IsCompletion(g.cells, h) ==> h[row][col] != num
    decreases Size - row, Size - col, Size + 1 - num, 0
  {
    var g' := Write(g, row, col, num);
    PlaceKeeps(g, row, col, num);
    SolveFromCorrect(g', row, col + 1);
    if SolveFrom(g', row, col + 1).found {
      PlacedFound(g, row, col, num);
    } else {
      PlacedNotFound(g, row, col, num);
    }
  }

  /** The search below an accepted digit succeeded: so does the loop, with
      that digit in place. */
  lemma PlacedFound(g: Grid, row: int, col: int, num: int)
    requires WF(g) && InRange(row, col) && g.cells[row][col] == Empty && g.states[row][col] == Editable
    requires 1 <= num <= Size && CanPlace(g, row, col, num)
    requires var r := SolveFrom(Write(g, row, col, num), row, col + 1);
      r.found && IsCompletion(Write(g, row, col, num).cells, r.grid.cells)
    ensures var t := TryDigits(g, row, col, num);
      t.found && IsCompletion(g.cells, t.grid.cells) && t.grid.cells[row][col] == num
  {
    var r := SolveFrom(Write(g, row, col, num), row, col + 1);
    TryPlacedStep(g, row, col, num);
    PlaceSolutions(g, row, col, num, r.grid.cells);
  }

  /** The search below an accepted digit failed, and no solution holds that
      digit: the loop goes on with the next digit from the same board. */
  lemma PlacedNotFound(g: Grid, row: int, col: int, num: int)
    requires WF(g) && InRange(row, col) && g.cells[row][col] == Empty && g.states[row][col] == Editable
    requires 1 <= num <= Size && CanPlace(g, row, col, num)
    requires !SolveFrom(Write(g, row, col, num), row, col + 1).found
    requires forall h :: !IsCompletion(Write(g, row, col, num).cells, h)
    ensures TryDigits(g, row, col, num) == TryDigits(g, row, col, num + 1)
    ensures forall h {:trigger IsCompletion(g.cells, h)} :: IsCompletion(g.cells, h) ==> h[row][col] != num
  {
    TryPlacedStep(g, row, col, num);
    forall h {:trigger IsCompletion(g.cells, h)} | IsCompletion(g.cells, h)
      ensures h[row][col] != num
    {
      PlaceSolutions(g, row, col, num, h);
    }
  }

  /** solve succeeds exactly when the puzzle has a solution, and then leaves
      one on the board. */
  lemma SolveCorrect(g: Grid)
    requires WF(g) && Valid(g.cells) && EmptyEditable(g)
    ensures Solve(g).found <==> exists h :: IsCompletion(g.cells, h)
    ensures Solve(g).found ==> IsCompletion(g.cells, Solve(g).grid.cells)
  {
    SolveFromCorrect(g, 0, 0);
  }

  // ---------------------------------------------------------------------------
  // The solution solve finds comes first
  // ---------------------------------------------------------------------------

  /** a comes before b in row-major order of their cells, and (r, c) is the
      first cell where they differ. */
  ghost predicate LexBelow(a: Cells, b: Cells, r: int, c: int)
    requires Shaped(a) && Shaped(b) && InRange(r, c)
  {
    (forall r', c' :: InRange(r', c') && Before(r', c', r, c) ==> a[r'][c'] == b[r'][c']) &&
    a[r][c] < b[r][c]
  }

  /** No solution of the puzzle v comes before s. */
  ghost predicate Least(v: Cells, s: Cells)
    requires Shaped(v) && Shaped(s)
  {
    forall h, r, c {:trigger LexBelow(h, s, r, c)} ::
      IsCompletion(v, h) && InRange(r, c) ==> !LexBelow(h, s, r, c)
  }

  /** The solution found from (row, col) on is the first one in row-major
      order: digits are tried in ascending order, cell by cell. */
  lemma {:induction false} SolveFromLeast(g: Grid, row: int, col: int)
    requires Inv(g, row, col)
    ensures SolveFrom(g, row, col).found ==> Least(g.cells, SolveFrom(g, row, col).grid.cells)
    decreases Size - row, Size - col, Size + 1, 0
  {
    if row == Size {
      forall h, r, c | IsCompletion(g.cells, h) && InRange(r, c)
        ensures !LexBelow(h, g.cells, r, c)
      {
        assert Before(r, c, row, col);
      }
    } else if col == Size {
      NextRow(g, row);
      SolveFromLeast(g, row + 1, 0);
    } else if g.cells[row][col] != Empty {
      NextCell(g, row, col);
      SolveFromLeast(g, row, col + 1);
    } else {
      forall h {:trigger IsCompletion(g.cells, h)} | IsCompletion(g.cells, h)
        ensures h[row][col] >= 1
      {
        CompletionDigit(g.cells, h, row, col);
      }
      TryDigitsLeast(g, row, col, 1);
    }
  }

  /** The digit loop from num on, when no solution holds a smaller digit at
      (row, col), finds the first solution. */
  lemma {:induction false} TryDigitsLeast(g: Grid, row: int, col: int, num: int)
    requires Inv(g, row, col) && InRange(row, col) && g.cells[row][col] == Empty && 1 <= num <= Size + 1
    requires forall h {:trigger IsCompletion(g.cells, h)} :: IsCompletion(g.cells, h) ==> h[row][col] >= num
    ensures TryDigits(g, row, col, num).found ==> Least(g.cells, TryDigits(g, row, col, num).grid.cells)
    decreases Size - row, Size - col, Size + 1 - num, 2
  {
    if num > Size {
    } else if !CanPlace(g, row, col, num) {
      assert TryDigits(g, row, col, num) == TryDigits(g, row, col, num + 1);
      NoPlaceNoCompletion(g, row, col, num);
      DigitBoundStep(g.cells, row, col, num);
      TryDigitsLeast(g, row, col, num + 1);
    } else {
      TryPlacedLeast(g, row, col, num);
    }
  }

  /** The same when canPlace accepts num. */
  lemma {:induction false} TryPlacedLeast(g: Grid, row: int, col: int, num: int)
    requires Inv(g, row, col) && InRange(row, col) && g.cells[row][col] == Empty && 1 <= num <= Size
    requires CanPlace(g, row, col, num)
    requires forall h {:trigger IsCompletion(g.cells, h)} :: IsCompletion(g.cells, h) ==> h[row][col] >= num
    ensures TryDigits(g, row, col, num).found ==> Least(g.cells, TryDigits(g, row, col, num).grid.cells)
    decreases Size - row, Size - col, Size + 1 - num, 1
  {
    var g' := Write(g, row, col, num);
    if SolveFrom(g', row, col + 1).found {
      FoundLeast(g, row, col, num);
    } else {
      NotFoundBelow(g, row, col, num);
      TryDigitsLeast(g, row, col, num + 1);
    }
  }

  /** The search below an accepted digit failed: the loop goes on with the
      next digit, and no solution holds a digit below it at (row, col). */
  lemma NotFoundBelow(g: Grid, row: int, col: int, num: int)
    requires Inv(g, row, col) && InRange(row, col) && g.cells[row][col] == Empty && 1 <= num <= Size
    requires CanPlace(g, row, col, num)
    requires forall h {:trigger IsCompletion(g.cells, h)} :: IsCompletion(g.cells, h) ==> h[row][col] >= num
    requires !SolveFrom(Write(g, row, col, num), row, col + 1).found
    ensures TryDigits(g, row, col, num) == TryDigits(g, row, col, num + 1)
    ensures forall h {:trigger IsCompletion(g.cells, h)} :: IsCompletion(g.cells, h) ==> h[row][col] >= num + 1
  {
    PlaceKeeps(g, row, col, num);
    SolveFromCorrect(Write(g, row, col, num), row, col + 1);
    PlacedNotFound(g, row, col, num);
    DigitBoundStep(g.cells, row, col, num);
  }

  /** The search below an accepted digit succeeded: the solution it found
      comes first. */
  lemma {:induction false} FoundLeast(g: Grid, row: int, col: int, num: int)
    requires Inv(g, row, col) && InRange(row, col) && g.cells[row][col] == Empty && 1 <= num <= Size
    requires CanPlace(g, row, col, num)
    requires forall h {:trigger IsCompletion(g.cells, h)} :: IsCompletion(g.cells, h) ==> h[row][col] >= num
    requires SolveFrom(Write(g, row, col, num), row, col + 1).found
    ensures TryDigits(g, row, col, num).found && Least(g.cells, TryDigits(g, row, col, num).grid.cells)
    decreases Size - row, Size - col, Size + 1 - num, 0
  {
    var g' := Write(g, row, col, num);
    PlaceKeeps(g, row, col, num);
    SolveFromCorrect(g', row, col + 1);
    SolveFromLeast(g', row, col + 1);
    PlacedLeast(g, row, col, num);
  }

  /** When the search below the smallest digit any solution can hold at
      (row, col) finds the first solution of the written board, that is the
      first solution of the board. */
  lemma PlacedLeast(g: Grid, row: int, col: int, num: int)
    requires Inv(g, row, col) && InRange(row, col) && g.cells[row][col] == Empty && 1 <= num <= Size
    requires CanPlace(g, row, col, num)
    requires forall h {:trigger IsCompletion(g.cells, h)} :: IsCompletion(g.cells, h) ==> h[row][col] >= num
    requires var r := SolveFrom(Write(g, row, col, num), row, col + 1);
      r.found && IsCompletion(Write(g, row, col, num).cells, r.grid.cells) &&
      Least(Write(g, row, col, num).cells, r.grid.cells)
    ensures TryDigits(g, row, col, num).found && Least(g.cells, TryDigits(g, row, col, num).grid.cells)
  {
    var g' := Write(g, row, col, num);
    var s := SolveFrom(g', row, col + 1).grid.cells;
    TryPlacedStep(g, row, col, num);
    assert s[row][col] == num;
    forall h, r, c | IsCompletion(g.cells, h) && InRange(r, c)
      ensures !LexBelow(h, s, r, c)
    {
      if LexBelow(h, s, r, c) && Before(row, col, r, c) {
        PlaceSolutions(g, row, col, num, h);
      }
    }
  }

  /** No solution holds a digit below num at (row, col), nor num itself: so
      none holds a digit below num + 1. */
  lemma DigitBoundStep(v: Cells, row: int, col: int, num: int)
    requires Shaped(v) && InRange(row, col)
    requires forall h {:trigger IsCompletion(v, h)} :: IsCompletion(v, h) ==> h[row][col] >= num
    requires forall h {:trigger IsCompletion(v, h)} :: IsCompletion(v, h) ==> h[row][col] != num
    ensures forall h {:trigger IsCompletion(v, h)} :: IsCompletion(v, h) ==> h[row][col] >= num + 1
  {
  }

  /** solve leaves the first solution in row-major order on the board. */
  lemma SolveLeast(g: Grid)
    requires WF(g) && Valid(g.cells) && EmptyEditable(g)
    ensures Solve(g).found ==> Least(g.cells, Solve(g).grid.cells)
  {
    SolveFromLeast(g, 0, 0);
  }

  // ---------------------------------------------------------------------------
  // Counting solutions, up to two
  // ---------------------------------------------------------------------------

  function Min(a: int, b: int): int {
    if a < b then a else b
  }

  /** How many boards satisfy p, counted up to two: 2 stands for "two or more". */
  ghost function Cap2(p: Cells -> bool): (n: int)
    ensures 0 <= n <= 2
  {
    if !exists h :: p(h) then 0
    else if exists h1, h2 :: p(h1) && p(h2) && h1 != h2 then 2
    else 1
  }

  /** The number of solutions of v, up to two. */
  ghost function Class(v: Cells): (n: int)
    requires Shaped(v)
    ensures 0 <= n <= 2
  {
    Cap2(h => IsCompletion(v, h))
  }

  /** Class is 0 when v has no solution and 1 when it has exactly one. */
  lemma ClassMeaning(v: Cells)
    requires Shaped(v)
    ensures Class(v) == 0 <==> forall h :: !IsCompletion(v, h)
    ensures Class(v) == 1 <==>
      (exists h :: IsCompletion(v, h)) &&
      forall h1, h2 :: IsCompletion(v, h1) && IsCompletion(v, h2) ==> h1 == h2
    ensures Class(v) == 2 <==> exists h1, h2 :: IsCompletion(v, h1) && IsCompletion(v, h2) && h1 != h2
  {
    var p := h => IsCompletion(v, h);
    Cap2Meaning(p);
    assert forall h :: p(h) == IsCompletion(v, h);
  }

  /** The number of solutions of v with a digit of at least lo at (row, col), up to two. */
  ghost function ClassFrom(v: Cells, row: int, col: int, lo: int): (n: int)
    requires Shaped(v) && InRange(row, col)
    ensures 0 <= n <= 2
  {
    Cap2(h => IsCompletion(v, h) && h[row][col] >= lo)
  }

  /** The number of solutions of v with the digit num at (row, col), up to two. */
  ghost function ClassAt(v: Cells, row: int, col: int, num: int): (n: int)
    requires Shaped(v) && InRange(row, col)
    ensures 0 <= n <= 2
  {
    Cap2(h => IsCompletion(v, h) && h[row][col] == num)
  }

  /** Two or more is never one; none is zero. */
  lemma Cap2Meaning(p: Cells -> bool)
    ensures Cap2(p) == 0 <==> forall h :: !p(h)
    ensures Cap2(p) == 1 <==> (exists h :: p(h)) && forall h1, h2 :: p(h1) && p(h2) ==> h1 == h2
    ensures Cap2(p) == 2 <==> exists h1, h2 :: p(h1) && p(h2) && h1 != h2
  {
  }

  lemma Cap2Equiv(p: Cells -> bool, q: Cells -> bool)
    requires forall h :: p(h) <==> q(h)
    ensures Cap2(p) == Cap2(q)
  {
  }

  /** Counting up to two is additive over a split into two disjoint parts. */
  lemma Cap2Split(p: Cells -> bool, q: Cells -> bool, r: Cells -> bool)
    requires forall h :: p(h) <==> q(h) || r(h)
    requires forall h :: !(q(h) && r(h))
    ensures Cap2(p) == Min(Cap2(q) + Cap2(r), 2)
  {
    if Cap2(q) >= 1 && Cap2(r) >= 1 {
      var a :| q(a);
      var b :| r(b);
      assert p(a) && p(b) && a != b;
    } else if Cap2(q) == 0 {
      assert forall h :: p(h) <==> r(h);
    } else {
      assert forall h :: p(h) <==> q(h);
    }
  }

  /** The value countSolutions(grid, row, col) returns, as a function of the
      board it is called on. The program threads one board through the
      trial writes; CountOn below does the same and proves that the board
      comes back unchanged with this count. */
  function CountFrom(g: Grid, row: int, col: int): (n: int)
    requires WF(g) && 0 <= row <= Size && 0 <= col <= Size
    ensures n >= 0
    decreases Size - row, Size - col, Size + 1
  {
    if row == Size then 1
    else if col == Size then CountFrom(g, row + 1, 0)
    else if g.cells[row][col] != Empty then CountFrom(g, row, col + 1)
    else CountDigits(g, row, col, 1, 0)
  }

  /** The loop of countSolutions over the digits num..9 at the empty cell
      (row, col), which stops as soon as the running total reaches two. */
  function CountDigits(g: Grid, row: int, col: int, num: int, total: int): (n: int)
    requires WF(g) && InRange(row, col) && g.cells[row][col] == Empty && 1 <= num <= Size + 1
    requires total >= 0
    ensures n >= total
    ensures total >= 2 ==> n == total
    decreases Size - row, Size - col, Size + 1 - num
  {
    if num > Size || total >= 2 then total
    else if CanPlace(g, row, col, num) then
      CountDigits(g, row, col, num + 1, total + CountFrom(Write(g, row, col, num), row, col + 1))
    else CountDigits(g, row, col, num + 1, total)
  }

  /** A count and the board the counter leaves behind. */
  datatype Count = Count(n: int, grid: Grid)

  /** countSolutions(grid, row, col) on a board passed by reference: each
      trial digit is written, counted below and overwritten with 0. */
  function CountOn(g: Grid, row: int, col: int): (r: Count)
    requires WF(g) && 0 <= row <= Size && 0 <= col <= Size
    ensures r.grid == g && r.n == CountFrom(g, row, col)
    decreases Size - row, Size - col, Size + 1
  {
    if row == Size then Count(1, g)
    else if col == Size then CountOn(g, row + 1, 0)
    else if g.cells[row][col] != Empty then CountOn(g, row, col + 1)
    else CountDigitsOn(g, row, col, 1, 0)
  }

  /** The digit loop of countSolutions on the shared board. */
  function CountDigitsOn(g: Grid, row: int, col: int, num: int, total: int): (r: Count)
    requires WF(g) && InRange(row, col) && g.cells[row][col] == Empty && 1 <= num <= Size + 1
    requires total >= 0
    ensures r.grid == g && r.n == CountDigits(g, row, col, num, total)
    decreases Size - row, Size - col, Size + 1 - num
  {
    if num > Size || total >= 2 then Count(total, g)
    else if CanPlace(g, row, col, num) then
      var below := CountOn(Write(g, row, col, num), row, col + 1);
      CountOnStep(g, row, col, num, total, below);
      CountDigitsOn(Write(below.grid, row, col, Empty), row, col, num + 1, total + below.n)
    else CountDigitsOn(g, row, col, num + 1, total)
  }

  /** One accepted digit of countSolutions on the shared board: writing 0
      over the trial digit gives back the board the loop started from, and
      the count below is what the loop adds. */
  lemma CountOnStep(g: Grid, row: int, col: int, num: int, total: int, below: Count)
    requires WF(g) && InRange(row, col) && g.cells[row][col] == Empty && 1 <= num <= Size
    requires CanPlace(g, row, col, num) && 0 <= total < 2
    requires below.grid == Write(g, row, col, num) && below.n == CountFrom(Write(g, row, col, num), row, col + 1)
    ensures Write(below.grid, row, col, Empty) == g
    ensures CountDigits(g, row, col, num, total) == CountDigits(g, row, col, num + 1, total + below.n)
  {
    WriteRestore(g, row, col, num);
    CountStep(g, row, col, num, total);
  }

  /** countSolutions(grid) from the first cell, which hands the board back
      as it found it. */
  function CountSolutions(g: Grid): (n: int)
    requires WF(g)
    ensures n >= 0 && n == CountFrom(g, 0, 0)
  {
    CountOn(g, 0, 0).n
  }

  /** hasUniqueSolution: the counter, run on a copy, reports exactly one. */
  function HasUniqueSolution(g: Grid): bool
    requires WF(g)
  {
    var temp := g;
    CountSolutions(temp) == 1
  }

  /** A board with every cell filled is its own only solution, if valid. */
  lemma FullBoardClass(g: Grid)
    requires Inv(g, Size, 0)
    ensures Class(g.cells) == 1
  {
    var p := h => IsCompletion(g.cells, h);
    assert p(g.cells);
    forall h1, h2 | p(h1) && p(h2)
      ensures h1 == h2
    {
      CellsExt(h1, g.cells);
      CellsExt(h2, g.cells);
    }
    Cap2Meaning(p);
  }

  /** From (row, col) on, the counter's total, capped at two, is the number
      of solutions, capped at two. */
  lemma {:induction false} CountFromClass(g: Grid, row: int, col: int)
    requires Inv(g, row, col)
    ensures Min(CountFrom(g, row, col), 2) == Class(g.cells)
    decreases Size - row, Size - col, Size + 1, 1
  {
    if row == Size {
      FullBoardClass(g);
    } else if col == Size {
      NextRow(g, row);
      CountFromClass(g, row + 1, 0);
    } else if g.cells[row][col] != Empty {
      NextCell(g, row, col);
      CountFromClass(g, row, col + 1);
    } else {
      CountDigitsClass(g, row, col, 1, 0);
      forall h ensures IsCompletion(g.cells, h) ==> h[row][col] >= 1 {
        if IsCompletion(g.cells, h) {
          CompletionDigit(g.cells, h, row, col);
        }
      }
      Cap2Equiv(h => IsCompletion(g.cells, h), h => IsCompletion(g.cells, h) && h[row][col] >= 1);
    }
  }

  /** The digit loop from num on adds the solutions with a digit of at least
      num at (row, col) to the running total, as far as two. */
  lemma {:induction false} CountDigitsClass(g: Grid, row: int, col: int, num: int, total: int)
    requires Inv(g, row, col) && InRange(row, col) && g.cells[row][col] == Empty && 1 <= num <= Size + 1
    requires total >= 0
    ensures Min(CountDigits(g, row, col, num, total), 2) == Min(total + ClassFrom(g.cells, row, col, num), 2)
    decreases Size - row, Size - col, Size + 1 - num, 2
  {
    if num > Size {
      ClassFromAbove(g.cells, row, col);
    } else if total >= 2 {
    } else {
      ClassFromSplit(g.cells, row, col, num);
      if CanPlace(g, row, col, num) {
        CountPlaced(g, row, col, num, total);
      } else {
        SkippedClass(g, row, col, num);
        assert CountDigits(g, row, col, num, total) == CountDigits(g, row, col, num + 1, total);
        CountDigitsClass(g, row, col, num + 1, total);
      }
    }
  }

  /** No solution holds a digit above nine. */
  lemma ClassFromAbove(v: Cells, row: int, col: int)
    requires Shaped(v) && InRange(row, col)
    ensures ClassFrom(v, row, col, Size + 1) == 0
  {
    forall h ensures !(IsCompletion(v, h) && h[row][col] >= Size + 1) {
      if IsCompletion(v, h) {
        CompletionDigit(v, h, row, col);
      }
    }
  }

  /** No solution holds a digit that canPlace refuses. */
  lemma SkippedClass(g: Grid, row: int, col: int, num: int)
    requires WF(g) && InRange(row, col) && g.cells[row][col] == Empty && 1 <= num <= Size
    requires !CanPlace(g, row, col, num)
    ensures ClassAt(g.cells, row, col, num) == 0
  {
    NoPlaceNoCompletion(g, row, col, num);
    Cap2Equiv(h => IsCompletion(g.cells, h) && h[row][col] == num, h => false);
  }

  /** The solutions with at least num at (row, col) are those with exactly
      num and those with at least num + 1. */
  lemma ClassFromSplit(v: Cells, row: int, col: int, num: int)
    requires Shaped(v) && InRange(row, col)
    ensures ClassFrom(v, row, col, num) == Min(ClassAt(v, row, col, num) + ClassFrom(v, row, col, num + 1), 2)
  {
    Cap2Split(h => IsCompletion(v, h) && h[row][col] >= num,
              h => IsCompletion(v, h) && h[row][col] == num,
              h => IsCompletion(v, h) && h[row][col] >= num + 1);
  }

  /** The same when canPlace accepts num: the count below is the number of
      solutions with num at (row, col). */
  lemma {:induction false} CountPlaced(g: Grid, row: int, col: int, num: int, total: int)
    requires Inv(g, row, col) && InRange(row, col) && g.cells[row][col] == Empty && 1 <= num <= Size
    requires CanPlace(g, row, col, num) && 0 <= total < 2
    ensures Min(CountDigits(g, row, col, num, total), 2) ==
      Min(total + Min(ClassAt(g.cells, row, col, num) + ClassFrom(g.cells, row, col, num + 1), 2), 2)
    decreases Size - row, Size - col, Size + 1 - num, 1
  {
    var t := CountFrom(Write(g, row, col, num), row, col + 1);
    CountDigitsClass(g, row, col, num + 1, total + t);
    assert Min(CountDigits(g, row, col, num + 1, total + t), 2) == Min(total + t + ClassFrom(g.cells, row, col, num + 1), 2);
    PlacedClass(g, row, col, num);
    CountCombine(g, row, col, num, total, t);
  }

  /** The step of CountPlaced once the counts below are known: the loop's
      count from num, capped, combines the count below num with the count
      of the later digits. */
  lemma CountCombine(g: Grid, row: int, col: int, num: int, total: int, t: int)
    requires WF(g) && InRange(row, col) && g.cells[row][col] == Empty && 1 <= num <= Size
    requires CanPlace(g, row, col, num) && 0 <= total < 2
    requires t == CountFrom(Write(g, row, col, num), row, col + 1)
    requires Min(CountDigits(g, row, col, num + 1, total + t), 2) == Min(total + t + ClassFrom(g.cells, row, col, num + 1), 2)
    requires Min(t, 2) == ClassAt(g.cells, row, col, num)
    ensures Min(CountDigits(g, row, col, num, total), 2) ==
      Min(total + Min(ClassAt(g.cells, row, col, num) + ClassFrom(g.cells, row, col, num + 1), 2), 2)
  {
    CountStep(g, row, col, num, total);
    MinAbsorb(CountDigits(g, row, col, num, total), CountDigits(g, row, col, num + 1, total + t),
      total + t, total, t, ClassAt(g.cells, row, col, num), ClassFrom(g.cells, row, col, num + 1));
  }

  /** One turn of the counter's loop on an accepted digit adds the count
      below it to the running total. */
  lemma CountStep(g: Grid, row: int, col: int, num: int, total: int)
    requires WF(g) && InRange(row, col) && g.cells[row][col] == Empty && 1 <= num <= Size
    requires CanPlace(g, row, col, num) && 0 <= total < 2
    ensures CountDigits(g, row, col, num, total) ==
      CountDigits(g, row, col, num + 1, total + CountFrom(Write(g, row, col, num), row, col + 1))
  {
  }

  /** After writing num, the counter's total from the next cell, capped at
      two, is the number of solutions with num at (row, col). */
  lemma {:induction false} PlacedClass(g: Grid, row: int, col: int, num: int)
    requires Inv(g, row, col) && InRange(row, col) && g.cells[row][col] == Empty && 1 <= num <= Size
    requires CanPlace(g, row, col, num)
    ensures Min(CountFrom(Write(g, row, col, num), row, col + 1), 2) == ClassAt(g.cells, row, col, num)
    decreases Size - row, Size - col, Size + 1 - num, 0
  {
    var g' := Write(g, row, col, num);
    PlaceKeeps(g, row, col, num);
    CountFromClass(g', row, col + 1);
    forall h ensures IsCompletion(g'.cells, h) <==> IsCompletion(g.cells, h) && h[row][col] == num {
      PlaceSolutions(g, row, col, num, h);
    }
    Cap2Equiv(h => IsCompletion(g'.cells, h), h => IsCompletion(g.cells, h) && h[row][col] == num);
  }

  /** The arithmetic of one accepted digit: the subtree's total t, capped,
      counts the solutions with that digit, and f those with larger digits. */
  lemma MinAbsorb(here: int, next: int, sum: int, total: int, t: int, at: int, f: int)
    requires total >= 0 && t >= 0 && f >= 0 && sum == total + t
    requires here == next && Min(next, 2) == Min(sum + f, 2) && Min(t, 2) == at
    ensures Min(here, 2) == Min(total + Min(at + f, 2), 2)
  {
  }

  /** The counter reports exactly one solution when the puzzle has one and
      only one. */
  lemma HasUniqueSolutionIff(g: Grid)
    requires WF(g) && Valid(g.cells) && EmptyEditable(g)
    ensures HasUniqueSolution(g) <==>
      (exists h :: IsCompletion(g.cells, h)) &&
      forall h1, h2 :: IsCompletion(g.cells, h1) && IsCompletion(g.cells, h2) ==> h1 == h2
  {
    CountFromClass(g, 0, 0);
    ClassMeaning(g.cells);
  }

  /** hasUniqueSolution answers whether the solutions, counted up to two, are one. */
  lemma UniqueIffClass(g: Grid)
    requires WF(g) && Valid(g.cells) && EmptyEditable(g)
    ensures HasUniqueSolution(g) <==> Class(g.cells) == 1
  {
    CountFromClass(g, 0, 0);
  }

  /** The solver and the counter agree on every board: from (row, col) on,
      the search succeeds exactly when the count is not zero. No validity is
      needed, since both walk the same cells and try the same digits. */
  lemma {:induction false} SolveFromCount(g: Grid, row: int, col: int)
    requires WF(g) && 0 <= row <= Size && 0 <= col <= Size
    ensures SolveFrom(g, row, col).found <==> CountFrom(g, row, col) > 0
    decreases Size - row, Size - col, Size + 1
  {
    if row == Size {
    } else if col == Size {
      SolveFromCount(g, row + 1, 0);
    } else if g.cells[row][col] != Empty {
      SolveFromCount(g, row, col + 1);
    } else {
      TryDigitsCount(g, row, col, 1);
    }
  }

  /** The digit loops agree: trying num..9 succeeds exactly when counting
      them from a total of 0 gives a positive count. */
  lemma {:induction false} TryDigitsCount(g: Grid, row: int, col: int, num: int)
    requires WF(g) && InRange(row, col) && g.cells[row][col] == Empty && 1 <= num <= Size + 1
    ensures TryDigits(g, row, col, num).found <==> CountDigits(g, row, col, num, 0) > 0
    decreases Size - row, Size - col, Size + 1 - num, 1
  {
    if num > Size {
    } else if !CanPlace(g, row, col, num) {
      assert TryDigits(g, row, col, num).found == TryDigits(g, row, col, num + 1).found;
      assert CountDigits(g, row, col, num, 0) == CountDigits(g, row, col, num + 1, 0);
      TryDigitsCount(g, row, col, num + 1);
    } else {
      TryPlacedCount(g, row, col, num);
    }
  }

  /** The same once canPlace has accepted num. */
  lemma {:induction false} TryPlacedCount(g: Grid, row: int, col: int, num: int)
    requires WF(g) && InRange(row, col) && g.cells[row][col] == Empty && 1 <= num <= Size
    requires CanPlace(g, row, col, num)
    ensures TryDigits(g, row, col, num).found <==> CountDigits(g, row, col, num, 0) > 0
    decreases Size - row, Size - col, Size + 1 - num, 0
  {
    var g' := Write(g, row, col, num);
    SolveFromCount(g', row, col + 1);
    if SolveFrom(g', row, col + 1).found {
      PlacedFoundCount(g, row, col, num);
    } else {
      PlacedEmptyCount(g, row, col, num);
      TryDigitsCount(g, row, col, num + 1);
    }
  }

  /** The search below an accepted digit succeeds and the count below it is
      positive: both loops report success from num on. */
  lemma PlacedFoundCount(g: Grid, row: int, col: int, num: int)
    requires WF(g) && InRange(row, col) && g.cells[row][col] == Empty && 1 <= num <= Size
    requires CanPlace(g, row, col, num)
    requires SolveFrom(Write(g, row, col, num), row, col + 1).found
    requires CountFrom(Write(g, row, col, num), row, col + 1) > 0
    ensures TryDigits(g, row, col, num).found && CountDigits(g, row, col, num, 0) > 0
  {
    TryPlacedStep(g, row, col, num);
    CountStep(g, row, col, num, 0);
  }

  /** The search below an accepted digit fails and the count below it is
      zero: both loops go on to num + 1 as if num had been refused. */
  lemma PlacedEmptyCount(g: Grid, row: int, col: int, num: int)
    requires WF(g) && InRange(row, col) && g.cells[row][col] == Empty && 1 <= num <= Size
    requires CanPlace(g, row, col, num)
    requires !SolveFrom(Write(g, row, col, num), row, col + 1).found
    requires CountFrom(Write(g, row, col, num), row, col + 1) == 0
    ensures TryDigits(g, row, col, num).found == TryDigits(g, row, col, num + 1).found
    ensures CountDigits(g, row, col, num, 0) == CountDigits(g, row, col, num + 1, 0)
  {
    TryPlacedStep(g, row, col, num);
    CountStep(g, row, col, num, 0);
  }

  /** solve succeeds exactly when countSolutions is positive, on any board. */
  lemma SolveAgreesWithCount(g: Grid)
    requires WF(g)
    ensures Solve(g).found <==> CountSolutions(g) > 0
  {
    SolveFromCount(g, 0, 0);
  }
}
